=== FILE: README.md ===
# Countdown timers — a Dafny model of the timer domain logic

This project models the domain core of a React Native countdown-timer app.
A timer has a name, a category, a duration in seconds, the seconds remaining,
a status (running, paused, completed), a list of percentage alerts and an
optional last-update stamp. The model covers:

- the alert engine: which threshold fires next, and marking thresholds consumed;
- the bulk start/pause/reset of a whole category;
- the state transitions of the timer provider: add, start, pause, reset,
  one tick of a running timer, the category operations and the alert check;
- the completion helpers (clamped remaining time, the completion predicate,
  the history record);
- the form validators: duration, category, the add-alert checks and the
  create-timer checks;
- the `formatTime` and `truncateText` formatters;
- the list screen's grouping by category and play/pause dispatch;
- the category header's Start All / Pause All / Reset choice.

Every operation is a pure function. The provider's state is a `Session`: the
timer list, the history log and the per-timer last-tick table. The
millisecond clock (`now`) and its ISO text (`isoNow`) are parameters.
JavaScript's `parseInt` (no radix), `String.prototype.trim` and the decimal
text of an integer are modelled in `JsStrings`.

Percentages are compared exactly. `Reaches` decides
`((duration - remaining) / duration) * 100 >= p` by integer
cross-multiplication. The lemma `ReachesIsPercentageComparison` ties it to
the rational value.

`formatTime` is paired with an independent reader, `ReadTime`. It parses
"<digits><unit>" pieces joined by blanks, where the unit is h, m or s.
`FormatTimeRoundTrip` proves that reading back the formatted text gives the
seconds. The reader exists only to state that property; the app has no such
function.

The provider imports `createHistoryItem` from a file that does not export
it, so a tick that should complete a timer throws instead (see "## Findings").
`TimerContext.UpdateRemainingTimeAsWritten` models the tick as written.
`TimerContext.UpdateRemainingTime`, the tick the rest of the model uses,
takes the helper from utils/timerStateUpdates.ts.

Module layout follows the source files:

| module | file modelled |
|---|---|
| TimerTypes | the `Timer`, `TimerAlert` and `TimerHistoryItem` records of context/TimerContext.tsx |
| JsStrings | the JavaScript built-ins used by the validators |
| TimerOperations | utils/timerOperations.ts |
| TimerStateUpdates | utils/timerStateUpdates.ts |
| TimerContext | the state transitions of context/TimerContext.tsx |
| Validation | utils/validation.ts |
| AlertSection | components/timer/AlertSection.tsx |
| CreateTimerSheet | components/CreateTimerSheet.tsx |
| TimerProgress | components/timer/TimerProgress.tsx |
| Helpers | utils/helpers.ts |
| TimerList | components/timer/TimerList.tsx |
| TimerHeader | components/timer/TimerHeader.tsx |

## Model

| member | source | states |
|---|---|---|
| TimerTypes.FindIndex | context/TimerContext.tsx:186 | `find` returns the first timer with the id; none exactly when no timer carries it |
| TimerTypes.Find | context/TimerContext.tsx:186 | the found timer is in the list and has the id; none exactly when no timer carries it |
| TimerTypes.InCategory | components/timer/TimerHeader.tsx:30-33 | `categoryTimers` holds exactly the list's timers of the category, and no more of them than the list |
| TimerTypes.InCategoryAppend | components/timer/TimerHeader.tsx:30-33 | filtering by category keeps list order: it distributes over concatenation |
| JsStrings.LeadingWhitespace | utils/validation.ts:28 | the count of leading ECMAScript whitespace characters, stopping at the first non-whitespace one |
| JsStrings.TrailingWhitespace | utils/validation.ts:28 | the count of trailing ECMAScript whitespace characters, stopping at the last non-whitespace one |
| JsStrings.Trim | utils/validation.ts:28 | `trim` is the slice of the text left after dropping the whitespace on both ends: everything cut off is whitespace, and the slice starts and ends with non-whitespace; it is empty exactly when the text is all whitespace |
| JsStrings.ParseInt | utils/validation.ts:10 | `parseInt` is NaN exactly when no digit follows the whitespace, the sign and a `0x` prefix; the value it gives otherwise is stated by `ParseIntDecimal` and `ParseIntHex` |
| JsStrings.ParseIntDecimal | components/timer/AlertSection.tsx:31 | for any input made of whitespace, an optional `+` or `-`, decimal digits and a tail that does not go on with a digit, `parseInt` gives the digits' value, negated after `-`; the tail (a fraction, a letter, a blank) is ignored |
| JsStrings.ParseIntHex | components/timer/AlertSection.tsx:31 | the same with `0x` or `0X` before the digits: the value is read in base 16 |
| JsStrings.ParseIntNoDigits | components/timer/AlertSection.tsx:31 | after the whitespace and an optional sign, a first character that is neither a digit nor another sign, or no character at all, gives NaN |
| JsStrings.ParseIntOfDigits | utils/validation.ts:10 | a non-empty string of decimal digits parses to its own value |
| JsStrings.IntToString | utils/validation.ts:35 | the template-literal text of an integer: a minus sign for negatives, then decimal digits |
| JsStrings.NatToStringValue | utils/validation.ts:35 | the decimal text of a natural number reads back as that number |
| JsStrings.ParseIntOfIntToString | components/CreateTimerSheet.tsx:41 | `parseInt` inverts the decimal text of every integer |
| TimerOperations.ReachesIsPercentageComparison | utils/timerOperations.ts:11-13 | the integer comparison equals the comparison of the rational completion percentage with the threshold |
| TimerOperations.UpdateTimerAlerts | utils/timerOperations.ts:3-8 | length, order and percentages are kept; a flag only goes from false to true; afterwards a flag is set iff it was set or the threshold is reached; nothing is left eligible |
| TimerOperations.NextEligible | utils/timerOperations.ts:12-14 | the chosen alert is an eligible member of the list with the lowest percentage; none iff no alert is eligible |
| TimerOperations.GetNextAlert | utils/timerOperations.ts:10-15 | the next alert is untriggered and reached, with a percentage no higher than any other eligible alert's; none iff every alert is triggered or unreached |
| TimerOperations.NothingToFireAfterUpdate | utils/timerOperations.ts:3-15 | after marking at a progress, `getNextAlert` at that progress returns nothing |
| TimerOperations.NextEligibleIsLowest | utils/timerOperations.ts:12-14 | whenever some alert is eligible, one is returned, at or below that alert's percentage |
| TimerOperations.ApplyOperation | utils/timerOperations.ts:35-59 | start and pause change only the status and `lastUpdated`; reset gives paused, full, all alerts re-armed with percentages kept; every operation stamps `lastUpdated = now` |
| TimerOperations.ClearTriggers | utils/timerOperations.ts:55 | every alert is re-armed, and length and percentages are kept |
| TimerOperations.UpdateTimersInCategory | utils/timerOperations.ts:29-68 | length, order, ids and categories are kept; other categories are unchanged; completed timers are unchanged except by reset; every other timer gets the operation |
| TimerOperations.GetTimerUpdateInterval | utils/timerOperations.ts:79-83 | at least 1; 1 when `lastUpdated` is absent or zero; otherwise the whole seconds elapsed when above 1 |
| TimerOperations.CalculateTimerProgress | utils/timerOperations.ts:85-88 | 0 for a zero duration; never above 100; equal to the completion percentage when that is at most 100, and exactly 100 on an overrun |
| TimerOperations.ProgressInRange | utils/timerOperations.ts:85-88 | for a timer within its bounds the progress is between 0 and 100 |
| TimerOperations.IsTimerEligibleForAction | utils/timerOperations.ts:90-104 | start iff not completed with time left; pause iff running; reset always; every eligible timer is one the bulk update of its category rewrites |
| TimerOperations.EligibleTimersAreUpdated | utils/timerOperations.ts:90-104 | every timer of the category that the eligibility table allows is rewritten by the bulk update with that operation |
| TimerStateUpdates.CreateHistoryItem | utils/timerStateUpdates.ts:3-9 | name, category and duration come from the timer; id and completion stamp come from the clock only |
| TimerStateUpdates.UpdateTimerWithRemaining | utils/timerStateUpdates.ts:11-19 | remaining is `max(0, r)`, with no clamp at the duration; completed iff `r <= 0` or already completed; status otherwise kept; `lastUpdated = now`; the other fields are unchanged |
| TimerStateUpdates.ShouldShowCompletionModal | utils/timerStateUpdates.ts:21-26 | announced iff the remaining time is exactly 0 and the timer is not completed yet; whenever announced, the update to that remaining time completes the timer |
| TimerStateUpdates.CompletionAnnouncedOnce | utils/timerStateUpdates.ts:11-26 | once an update with `r <= 0` has been applied, the completion is not announced again |
| TimerStateUpdates.CompletionAnnouncedWhenReachingZero | utils/timerStateUpdates.ts:21-26 | a timer not yet completed is announced at zero, and the update at zero completes it |
| TimerContext.AddTimer | context/TimerContext.tsx:104-113 | exactly one timer is appended: paused, full, id `now`, alerts defaulting to empty; existing timers, history and ticks are unchanged |
| TimerContext.StartTimer | context/TimerContext.tsx:241-255 | only matching non-completed timers become running with `lastUpdated = now`, and only then is the last tick set; a completed or unknown id changes nothing |
| TimerContext.PauseTimer | context/TimerContext.tsx:296-307 | every matching timer, completed ones included, becomes paused with `lastUpdated = now`; the others are untouched |
| TimerContext.ResetTimer | context/TimerContext.tsx:314-325 | the matching timer becomes paused and full with every alert re-armed; `lastUpdated` is kept; the others are untouched |
| TimerContext.ElapsedSeconds | context/TimerContext.tsx:179-181 | the whole seconds since the last tick, rounded down; 0 when there is no (truthy) last tick |
| TimerContext.CompleteAll | context/TimerContext.tsx:208-210 | timers with the id are completed at zero; the others are unchanged |
| TimerContext.SetRemaining | context/TimerContext.tsx:215-217 | timers with the id get the new remaining time; the others are unchanged |
| TimerContext.UpdateRemainingTime | context/TimerContext.tsx:178-217 | the tick with `createHistoryItem` taken from utils/timerStateUpdates.ts (see Findings): it keeps the list's length and ids and touches only timers with that id; when it completes the timer it sets that timer's remaining time to 0 and status to completed (nothing else of it changes) and appends exactly `createHistoryItem(timer, now)`; otherwise the history is kept |
| TimerContext.UpdateRemainingTimeAsWritten | context/TimerContext.tsx:178-217 | the tick as written never records a completion and never changes the history |
| TimerContext.AsWrittenDiffersOnlyOnCompletion | context/TimerContext.tsx:189-203 | the written tick agrees with the intended one except on completion, where it keeps every timer and only forgets the last tick |
| TimerContext.AsWrittenFinalTickLeavesTimerRunning | context/TimerContext.tsx:193-203 | as written, a completing tick leaves the timer running with nothing recorded, and every later tick of it changes nothing |
| TimerContext.AsWrittenFinalTickExample | context/TimerContext.tsx:203 | a timer with one second left, ticked one second later, stays running with empty history as written, but is completed and recorded by the intended tick |
| TimerContext.TickClock | context/TimerContext.tsx:179-201 | a tick under one second changes nothing, the tick table included; otherwise the last tick becomes exactly `now`, or is deleted on completion |
| TimerContext.TickOfIdleTimer | context/TimerContext.tsx:186-187 | a tick of a missing or non-running timer changes no timer and records nothing |
| TimerContext.TickNotFinal | context/TimerContext.tsx:189-217 | a non-final tick lowers the timer's remaining time by the elapsed seconds and changes nothing else in it |
| TimerContext.TickFinal | context/TimerContext.tsx:189-211 | a final tick completes the timer at zero (every other field kept), appends exactly `createHistoryItem(timer, now)` with `now` as id and `isoNow` as stamp, reports the timer's name for the modal and deletes its last tick |
| TimerContext.CompletedAfterFinalTick | context/TimerContext.tsx:208-210 | after a completing tick, `find` sees the timer as completed |
| TimerContext.TickKeepsCompleted | context/TimerContext.tsx:186-187 | a tick of a completed timer keeps it completed and appends nothing |
| TimerContext.LaterTicksAppendNothing | context/TimerContext.tsx:186-211 | exactly once: after the completing tick, any number of further ticks leave the history as it is |
| TimerContext.TicksOfCompletedTimer | context/TimerContext.tsx:186-211 | any sequence of ticks of a completed timer appends nothing to the history |
| TimerContext.StartCategoryTimers | context/TimerContext.tsx:262-289 | the timers equal the bulk start of the category; the last tick is set to `now` exactly for the started timers that had no interval |
| TimerContext.PauseCategoryTimers | context/TimerContext.tsx:365-384 | only running timers of the category become paused, without a `lastUpdated` stamp; afterwards none of the category runs |
| TimerContext.ResetCategoryTimers | context/TimerContext.tsx:390-394 | equal to the bulk reset: every timer of the category becomes paused and full, alerts re-armed with percentages kept, and, unlike `resetTimer`, `lastUpdated = now`; other categories are unchanged |
| TimerContext.CheckAlerts | context/TimerContext.tsx:141-170 | an alert fires only for a running timer found in the list, and it is that copy's next alert; when it fires, the timers with that id get their alerts marked at the snapshot's progress and nothing else; other timers are kept; nothing fires means nothing changes; conversely a running timer whose stored entry has an eligible alert always fires one |
| TimerContext.CheckAlertsConsumesAllCrossed | context/TimerContext.tsx:162-166 | one check consumes every crossed threshold, so nothing is left to fire at the same progress |
| TimerContext.CheckAlertsFiresLowest | context/TimerContext.tsx:141-160 | when a threshold is eligible, the check fires, at a percentage no higher than that threshold's |
| Validation.ValidateDuration | utils/validation.ts:1-21 | valid iff non-empty, all decimal digits, at most 5 digits and a value in 1..86400; each error case is pinned to its check and order |
| Validation.SixDigitsTooLong | utils/validation.ts:11-13 | "100000" is too long: the length is checked before the value |
| Validation.ZerosNotPositive | utils/validation.ts:14-16 | "00000" is not positive and is not too long |
| Validation.ZerosValue | utils/validation.ts:10 | any run of zeros parses to 0, however long |
| Validation.DayPlusOneRefused | utils/validation.ts:17-19 | 86401 seconds is refused as over 24 hours |
| Validation.WholeDayAccepted | utils/validation.ts:17-20 | exactly 86400 seconds is accepted |
| Validation.BlankIsNotDigit | utils/validation.ts:6-8 | a blank before the digits makes the value invalid with no message |
| Validation.ValidateCategory | utils/validation.ts:23-38 | valid iff none of the three errors holds: blank value, "Custom" with a blank custom name, or a trimmed value over the limit; the limit ignores the custom name |
| AlertSection.HandleAddAlert | components/timer/AlertSection.tsx:30-65 | the maximum check comes first, then empty, NaN, range and duplicate, each error pinned to its condition; a percentage is added iff all pass, and it is in 1..99 |
| AlertSection.TypedTextAddsItsLeadingNumber | components/timer/AlertSection.tsx:30-65 | typed text with blanks in front, a sign, or text after its digits ("50.5", "50%") is added at the value of its leading digits when that value is in 1..99 and new |
| AlertSection.HandlePreset | components/timer/AlertSection.tsx:130-139 | the maximum check comes first; a present preset is skipped silently; otherwise the preset is added |
| AlertSection.TypedAddKeepsWellFormed | components/timer/AlertSection.tsx:30-65 | a typed add keeps at most 5 alerts, each in 1..99, no percentage twice |
| AlertSection.PresetAddKeepsWellFormed | components/timer/AlertSection.tsx:130-139 | a preset add keeps at most 5 alerts, each in 1..99, no percentage twice |
| AlertSection.AppendFreshKeepsWellFormed | components/timer/AlertSection.tsx:55-63 | appending a new in-range percentage below the maximum keeps the alert list well formed |
| CreateTimerSheet.HandleCreateTimer | components/CreateTimerSheet.tsx:35-56 | the checks run name, duration, category, and only the first failure is reported; on success the payload is the trimmed name, the trimmed category and the parsed positive duration, with no alerts |
| CreateTimerSheet.FormAfterCreate | components/CreateTimerSheet.tsx:28-33 | after a success every field is empty and the custom flag is off; after a refusal the form is kept |
| CreateTimerSheet.AnyPositiveDurationAccepted | components/CreateTimerSheet.tsx:41-45 | there is no upper bound: any positive decimal duration is accepted as is |
| CreateTimerSheet.BlankCategoryBecomesEmpty | components/CreateTimerSheet.tsx:47-55 | the category is checked before trimming, so a blank one passes and becomes empty |
| CreateTimerSheet.CreatedTimerStartsFull | components/CreateTimerSheet.tsx:52-56 | a created timer enters the list paused and full, with a positive duration and no alerts |
| TimerProgress.ClockOf | components/timer/TimerProgress.tsx:12-14 | hours·3600 + minutes·60 + seconds = s, with minutes and seconds below 60 |
| TimerProgress.FormatTime | components/timer/TimerProgress.tsx:7-25 | non-empty and ending in "s"; "Ns" below 60; "Mm Ss" below an hour; "Hh Mm Ss" from an hour on |
| TimerProgress.FallbackUnreachable | components/timer/TimerProgress.tsx:16-24 | from 60 seconds on, the hours or the minutes are positive, so the last fallback is dead |
| TimerProgress.FormatTimeIsRender | components/timer/TimerProgress.tsx:7-25 | the formatted text is its hour/minute/second pieces joined by blanks |
| TimerProgress.TotalOfPartsOf | components/timer/TimerProgress.tsx:12-14 | the pieces printed for `s` stand for exactly `s` seconds |
| TimerProgress.FormatTimeRoundTrip | components/timer/TimerProgress.tsx:7-25 | reading back the formatted text gives the seconds |
| Helpers.ReplaceUnderscores | utils/helpers.ts:3 | same length; each underscore becomes a blank and every other character is kept |
| Helpers.TruncateText | utils/helpers.ts:1-10 | undefined iff the text is empty; the replaced text when it fits; otherwise its first `maxLength` characters and "...", `maxLength + 3` long |
| Helpers.TruncatedTextHasNoUnderscore | utils/helpers.ts:3-5 | no underscore survives, and the other characters before the cut keep their positions |
| Helpers.ShortCleanTextUnchanged | utils/helpers.ts:3-7 | text that fits and has no underscore comes back unchanged |
| Helpers.TruncateTwiceWhenFits | utils/helpers.ts:1-10 | truncating a result that already fits changes nothing |
| TimerList.HandlePlayPause | components/timer/TimerList.tsx:22-29 | pause iff the first timer with the id is running; start otherwise, an unknown id included |
| TimerList.PlayPauseToggles | components/timer/TimerList.tsx:22-29 | pressing play/pause takes running to paused and paused to running, and leaves a completed timer unchanged |
| TimerList.Shown | components/timer/TimerList.tsx:36-38 | with no (or an empty) selected category all timers are shown; otherwise exactly that category's |
| TimerList.GroupedTimers | components/timer/TimerList.tsx:34-47 | building the groups fails iff a shown timer's category is a name inherited from `Object.prototype`; otherwise a key exists iff a shown timer has that category, and each group is the shown timers of that category in list order |
| TimerList.GroupAllThrows | components/timer/TimerList.tsx:40-45 | the `forEach` throws exactly when it meets an inherited name that is not yet an own key |
| TimerList.GroupAllKeys | components/timer/TimerList.tsx:40-45 | when the `forEach` completes, it has created a group exactly for the categories it met |
| TimerList.GroupAllValues | components/timer/TimerList.tsx:40-45 | when the `forEach` completes, it has appended each timer to its group in list order |
| TimerList.InheritedCategoryBreaksList | components/timer/TimerList.tsx:41-44 | a timer whose category is an inherited name such as "toString" makes the list fail to build, filtered to that category or not |
| TimerList.EveryTimerInItsGroup | components/timer/TimerList.tsx:40-45 | without a filter the list builds iff no category is an inherited name; then every timer is in the group of its own category, groups hold only their category, and no group is empty |
| TimerList.FilterKeepsOneGroup | components/timer/TimerList.tsx:36-45 | with a category selected only that group can exist, and it holds all of the category's timers; building fails only for an inherited name |
| TimerList.NewTimerJoinsEndOfGroup | components/timer/TimerList.tsx:40-45 | when the list builds, a timer appended to it lands at the end of its group |
| TimerHeader.IsAnyRunningMeansSomeRunning | components/timer/TimerHeader.tsx:35-38 | `isAnyRunning` holds iff some timer of the category is running |
| TimerHeader.ActionFor | components/timer/TimerHeader.tsx:110-129 | the primary button pauses iff something in the category runs and starts otherwise; reset always resets |
| TimerHeader.HandleAction | components/timer/TimerHeader.tsx:40-53 | start is the bulk start, stamping the last tick of exactly the timers it starts; pause pauses exactly the running timers of the category, changes nothing else and keeps the last ticks; reset is the bulk reset and keeps the last ticks; history is kept |
| TimerHeader.PressPrimary | components/timer/TimerHeader.tsx:111 | the primary button pauses when a timer of the category runs, leaving none running, and is the bulk start otherwise; history is kept |
| TimerHeader.PauseAllThenStartAll | components/timer/TimerHeader.tsx:111 | after "Pause All" the next press of the same button is "Start All" |
| TimerHeader.StartAllThenPauseAll | components/timer/TimerHeader.tsx:111 | after "Start All" on a category with a timer that is not completed, the next press is "Pause All" |
| TimerHeader.ResetButtonResetsAll | components/timer/TimerHeader.tsx:129 | the reset button leaves every timer of the category paused and full, whatever the statuses were |

## Left out

- Scheduling: `setInterval`/`clearInterval`, `requestAnimationFrame`, the interval and frame tables, `useEffect`/`AppState` listeners and stale closures are not modelled. Both `startTimer` (context/TimerContext.tsx:247) and `startCategoryTimers` (:280-285) create intervals, so a timer can get two. The alert check is scheduled through an animation frame (:221). The model treats one tick and one alert check as separate transitions the caller sequences.
- TimerContext.StartCategoryTimers: which timers already own an interval is the parameter `ticking`, standing for the interval table.
- Persistence: AsyncStorage loads and saves (utils/storage.ts) are not modelled; every save is taken to succeed. `loadTimers`, `loadHistory`, `clearHistory` and the history export are not modelled either.
- TimerContext.UpdateRemainingTime: the source queues the new list with `setTimers(prev => …)` but finds the timer in the render-time `timers`. The model uses one list for both. It also resolves `createHistoryItem` to utils/timerStateUpdates.ts:3-9; the tick as imported is `UpdateRemainingTimeAsWritten` (see Findings).
- `updateTimerStatus` (context/TimerContext.tsx:331-336) is not modelled: it is a direct status write with no logic.
- Presentation: haptics, toasts and every modal are not modelled. Neither are the completion modal's visibility and its name, beyond the `completedName` returned by a tick.
- The clock: `Date.now()` and `new Date().toISOString()` are the parameters `now` and `isoNow`.
- TimerStateUpdates.CreateHistoryItem: the item's id and completion stamp are the tick's own `now` and `isoNow`. The source reads the clock again inside `createHistoryItem` (utils/timerStateUpdates.ts:4 and :8), so in the source the id can be a few milliseconds later than the tick time. The same holds for `TimerContext.UpdateRemainingTime` and `TimerContext.TickFinal`, which pass the tick's `now` on.
- TimerOperations.UpdateTimersInCategory: one `now` stands for the separate `Date.now()` calls made per timer at utils/timerOperations.ts:41, :47 and :54, so every touched timer gets the same `lastUpdated`; in the source the stamps may differ by a few milliseconds.
- Floating point: percentages are exact rationals, and the integer comparison in `Reaches` is exact. IEEE rounding at an exact threshold is not modelled; in JavaScript, for example, `0.29 * 100` is slightly below 29.
- TimerOperations.Reaches: a zero duration is handled as JavaScript's `±Infinity`/`NaN` comparison outcomes, not as floating-point values.
- JsStrings.ParseInt: numbers are unbounded integers, not IEEE doubles. Above 2^53 JavaScript rounds (`parseInt("9007199254740993")` is 9007199254740992), and 309 or more digits parse to `Infinity`.
- JsStrings.ParseIntDecimal: `parseInt("-0")` is the double -0; the model gives the integer 0. The callers compare it only with 0 and 100, where the two agree.
- JsStrings.ParseIntOfDigits: holds for JavaScript only while the value is at most 2^53; beyond that the parsed double is rounded.
- JsStrings.IntToString: prints every integer in plain decimal; JavaScript switches to exponent form from 1e21 (`"1e+21"`).
- JsStrings.ParseIntOfIntToString: the round trip is exact for unbounded integers; for JavaScript numbers it holds only up to 2^53 in magnitude.
- CreateTimerSheet.AnyPositiveDurationAccepted: "accepted as is" holds for JavaScript only up to 2^53; larger durations are rounded, and 309 or more digits give `Infinity`, which the check at components/CreateTimerSheet.tsx:42 also lets through.
- Strings are sequences of UTF-16 code units; characters outside the Basic Multilingual Plane are not modelled.
- TimerList.GroupedTimers: groups form a map, so the key order of `Object.entries` (insertion order, with integer-like keys first) is not modelled. The thrown `TypeError` is modelled as `None`; what the screen shows then is not.
- AlertSection.AppendAlert: the `onAddAlert` callback belongs to a caller that is not part of this model. It is assumed to append an untriggered alert.
- JsStrings.ParseInt: `parseInt` without a radix also reads a `0x`/`0X` prefix as base 16, as ECMAScript specifies, so "0x10" parses to 16.
- TimerProgress.FormatTime: non-integer seconds are not modelled; seconds are integers.
- TimerProgress.ReadTime: this reader is not part of the app. It exists to state the round trip of `formatTime`.
- Behaviour of the code that the model keeps, though a reader might expect otherwise:
  - a tick sets the last tick to exactly `now`, dropping the sub-second remainder (context/TimerContext.tsx:184);
  - `checkAlerts` marks every threshold the timer has reached as triggered in one call (:164);
  - `pauseTimer` pauses a completed timer too (:304);
  - `resetTimer` leaves `lastUpdated` as it was (:316-321), while the category reset stamps it (utils/timerOperations.ts:54).

## Findings

| source | as written | input that shows it | evidently intended | confidence | as-written member | corrected member |
|---|---|---|---|---|---|---|
| context/TimerContext.tsx:11 | `createHistoryItem` is imported from utils/timerOperations.ts, which does not export it, so the call at :203 throws a `TypeError`. The intervals and the last tick are cleared first, but the timer is never marked completed, no history item is saved and no modal is shown. The timer stays running and its ticks then do nothing. | a running timer with 1 second left, last ticked at 1000 ms, ticked at 2000 ms | import it from utils/timerStateUpdates.ts:3, so the tick completes the timer at zero, appends one history item and shows the modal | high; not executed | TimerContext.UpdateRemainingTimeAsWritten, TimerContext.AsWrittenFinalTickExample | TimerContext.UpdateRemainingTime, TimerContext.TickFinal |

=== FILE: alert_section.dfy ===
/** The alert form of `components/timer/AlertSection.tsx`: the checks made
    before a typed percentage is added, and the preset buttons. */
module AlertSection {
  import opened TimerTypes
  import opened JsStrings

  /** At most this many alerts per timer. */
  const MaxAlerts := 5

  /** The percentages offered as one-tap presets. */
  const PresetAlerts: seq<int> := [25, 50, 75, 80]

  datatype AlertError =
    | TooManyAlerts
    | PercentageRequired
    | NotANumber
    | OutOfRange
    | DuplicatePercentage

  /** The text shown for each error. */
  function AlertMessage(e: AlertError): string {
    match e
    case TooManyAlerts => "Maximum " + IntToString(MaxAlerts) + " alerts allowed"
    case PercentageRequired => "Please enter a percentage"
    case NotANumber => "Please enter a valid number"
    case OutOfRange => "Percentage must be between 1 and 99"
    case DuplicatePercentage => "This percentage alert already exists"
  }

  /** What pressing an add button does: shows an error, calls `onAddAlert`
      with a percentage, or (preset already present) nothing at all. */
  datatype AddOutcome = Rejected(error: AlertError) | Added(percentage: int) | Skipped

  predicate HasPercentage(alerts: seq<TimerAlert>, p: int) {
    exists a :: a in alerts && a.percentage == p
  }

  /** `handleAddAlert` for the typed text `input`. */
  function HandleAddAlert(alerts: seq<TimerAlert>, input: string): (r: AddOutcome)
    ensures !r.Skipped?
    ensures |alerts| >= MaxAlerts ==> r == Rejected(TooManyAlerts)
    ensures |alerts| < MaxAlerts && |input| == 0 ==> r == Rejected(PercentageRequired)
    ensures |alerts| < MaxAlerts && |input| > 0 && ParseInt(input).None? ==> r == Rejected(NotANumber)
    ensures |alerts| < MaxAlerts && |input| > 0 && ParseInt(input).Some? && !(0 < ParseInt(input).value < 100) ==>
      r == Rejected(OutOfRange)
    ensures (|alerts| < MaxAlerts && |input| > 0 && ParseInt(input).Some? && 0 < ParseInt(input).value < 100
             && HasPercentage(alerts, ParseInt(input).value)) ==> r == Rejected(DuplicatePercentage)
    ensures r.Added? <==>
      && |alerts| < MaxAlerts && ParseInt(input).Some?
      && 0 < ParseInt(input).value < 100
      && !HasPercentage(alerts, ParseInt(input).value)
    ensures r.Added? ==> r.percentage == ParseInt(input).value && 1 <= r.percentage <= 99
    ensures r == Rejected(DuplicatePercentage) ==> HasPercentage(alerts, ParseInt(input).value)
  {
    var percentage := ParseInt(input);
    if |alerts| >= MaxAlerts then Rejected(TooManyAlerts)
    else if |input| == 0 then Rejected(PercentageRequired)
    else if percentage.None? then Rejected(NotANumber)
    else if percentage.value <= 0 || percentage.value >= 100 then Rejected(OutOfRange)
    else if exists a :: a in alerts && a.percentage == percentage.value then Rejected(DuplicatePercentage)
    else Added(percentage.value)
  }

  /** Typed text is read the way `parseInt` reads it: blanks in front, a
      `+`, and whatever follows the digits (a fraction, a `%`) are ignored,
      so " 50", "+50", "50.5" and "50%" all add an alert at 50. */
  lemma TypedTextAddsItsLeadingNumber(alerts: seq<TimerAlert>, w: string, sign: string, d: string, tail: string)
    requires |alerts| < MaxAlerts
    requires AllWhitespace(w)
    requires sign == "" || sign == "+" || sign == "-"
    requires |d| > 0 && AllDecimalDigits(d)
    requires !HasHexPrefix(d + tail)
    requires |tail| == 0 || !IsDecimalDigit(tail[0])
    requires 0 < Signed(sign, DigitsValue(d, false)) < 100
    requires !HasPercentage(alerts, DigitsValue(d, false))
    ensures HandleAddAlert(alerts, w + (sign + (d + tail))) == Added(DigitsValue(d, false))
  {
    ParseIntDecimal(w, sign, d, tail);
  }

  /** The `onPress` of the button for `preset`. */
  function HandlePreset(alerts: seq<TimerAlert>, preset: int): (r: AddOutcome)
    ensures |alerts| >= MaxAlerts ==> r == Rejected(TooManyAlerts)
    ensures |alerts| < MaxAlerts && HasPercentage(alerts, preset) ==> r == Skipped
    ensures r.Added? <==> |alerts| < MaxAlerts && !HasPercentage(alerts, preset)
    ensures r.Added? ==> r.percentage == preset
  {
    if |alerts| >= MaxAlerts then Rejected(TooManyAlerts)
    else if !HasPercentage(alerts, preset) then Added(preset)
    else Skipped
  }

  /** What the form's owner does with an added percentage: a new, untriggered
      alert at the end of the list. */
  function AppendAlert(alerts: seq<TimerAlert>, outcome: AddOutcome): (r: seq<TimerAlert>)
    ensures outcome.Added? ==> r == alerts + [TimerAlert(outcome.percentage, false)]
    ensures !outcome.Added? ==> r == alerts
  {
    if outcome.Added? then alerts + [TimerAlert(outcome.percentage, false)] else alerts
  }

  /** The alert-list invariant the form keeps: at most five alerts, each
      between 1 and 99, no percentage twice. */
  predicate WellFormedAlerts(alerts: seq<TimerAlert>) {
    && |alerts| <= MaxAlerts
    && (forall i :: 0 <= i < |alerts| ==> 1 <= alerts[i].percentage <= 99)
    && (forall i, j :: 0 <= i < j < |alerts| ==> alerts[i].percentage != alerts[j].percentage)
  }

  /** Adding a typed percentage keeps the alert list well formed. */
  lemma {:induction false} TypedAddKeepsWellFormed(alerts: seq<TimerAlert>, input: string)
    requires WellFormedAlerts(alerts)
    ensures WellFormedAlerts(AppendAlert(alerts, HandleAddAlert(alerts, input)))
  {
    var r := HandleAddAlert(alerts, input);
    if r.Added? {
      AppendFreshKeepsWellFormed(alerts, r.percentage);
    }
  }

  /** Adding a preset keeps the alert list well formed. */
  lemma {:induction false} PresetAddKeepsWellFormed(alerts: seq<TimerAlert>, i: int)
    requires WellFormedAlerts(alerts) && 0 <= i < |PresetAlerts|
    ensures WellFormedAlerts(AppendAlert(alerts, HandlePreset(alerts, PresetAlerts[i])))
  {
    var r := HandlePreset(alerts, PresetAlerts[i]);
    if r.Added? {
      AppendFreshKeepsWellFormed(alerts, r.percentage);
    }
  }

  lemma {:induction false} AppendFreshKeepsWellFormed(alerts: seq<TimerAlert>, p: int)
    requires WellFormedAlerts(alerts) && |alerts| < MaxAlerts
    requires 1 <= p <= 99 && !HasPercentage(alerts, p)
    ensures WellFormedAlerts(alerts + [TimerAlert(p, false)])
  {
    var r := alerts + [TimerAlert(p, false)];
    forall i, j | 0 <= i < j < |r|
      ensures r[i].percentage != r[j].percentage
    {
      if j == |alerts| {
        assert r[i] in alerts;
      }
    }
  }
}

=== FILE: create_timer_sheet.dfy ===
/** The create-timer form of `components/CreateTimerSheet.tsx`: the checks
    `handleCreateTimer` makes, the payload it hands to `addTimer`, and the
    form reset that follows. */
module CreateTimerSheet {
  import opened TimerTypes
  import opened JsStrings
  import opened TimerContext

  /** The form's fields: the three text inputs and the custom-category flag. */
  datatype Form = Form(name: string, duration: string, category: string, showCustomCategory: bool)

  /** The form as `resetForm` leaves it. */
  const EmptyForm := Form("", "", "", false)

  datatype CreateError = NameRequired | InvalidDuration | CategoryRequired

  /** The text of the error dialog. */
  function CreateMessage(e: CreateError): string {
    match e
    case NameRequired => "Please enter a timer name"
    case InvalidDuration => "Please enter a valid duration"
    case CategoryRequired => "Please select a category"
  }

  /** Either the first failing check, or the payload given to `addTimer`. */
  datatype CreateOutcome = Refused(error: CreateError) | Created(payload: NewTimer)

  /** `handleCreateTimer`: name, then duration, then category; only the first
      failure is reported. The category is checked before trimming. */
  function HandleCreateTimer(f: Form): (r: CreateOutcome)
    ensures AllWhitespace(f.name) ==> r == Refused(NameRequired)
    ensures !AllWhitespace(f.name) && (ParseInt(f.duration).None? || ParseInt(f.duration).value <= 0) ==>
      r == Refused(InvalidDuration)
    ensures (!AllWhitespace(f.name) && ParseInt(f.duration).Some? && ParseInt(f.duration).value > 0
             && |f.category| == 0) ==> r == Refused(CategoryRequired)
    ensures r.Created? <==>
      !AllWhitespace(f.name) && ParseInt(f.duration).Some? && ParseInt(f.duration).value > 0 && |f.category| > 0
    ensures r.Created? ==>
      && r.payload.name == Trim(f.name) && |r.payload.name| > 0
      && r.payload.category == Trim(f.category)
      && r.payload.duration == ParseInt(f.duration).value && r.payload.duration > 0
      && r.payload.alerts.None? && r.payload.lastUpdated.None?
  {
    var durationNum := ParseInt(f.duration);
    if |Trim(f.name)| == 0 then Refused(NameRequired)
    else if durationNum.None? || durationNum.value <= 0 then Refused(InvalidDuration)
    else if |f.category| == 0 then Refused(CategoryRequired)
    else Created(NewTimer(Trim(f.name), Trim(f.category), durationNum.value, None, None))
  }

  /** The form after pressing create: cleared on success, untouched otherwise. */
  function FormAfterCreate(f: Form): (r: Form)
    ensures HandleCreateTimer(f).Created? ==>
      r.name == [] && r.duration == [] && r.category == [] && !r.showCustomCategory
    ensures HandleCreateTimer(f).Refused? ==> r == f
  {
    if HandleCreateTimer(f).Created? then EmptyForm else f
  }

  /** There is no upper bound on the duration here: any positive whole
      number of seconds typed in decimal is accepted as is. */
  lemma {:induction false} AnyPositiveDurationAccepted(name: string, n: int, category: string, custom: bool)
    requires !AllWhitespace(name) && n > 0 && |category| > 0
    ensures var r := HandleCreateTimer(Form(name, IntToString(n), category, custom));
      r.Created? && r.payload.duration == n
  {
    ParseIntOfIntToString(n);
  }

  /** Since the category is checked before it is trimmed, a blank category
      passes and the timer is created with an empty category. */
  lemma BlankCategoryBecomesEmpty(name: string, duration: string, category: string, custom: bool)
    requires !AllWhitespace(name) && ParseInt(duration).Some? && ParseInt(duration).value > 0
    requires |category| > 0 && AllWhitespace(category)
    ensures var r := HandleCreateTimer(Form(name, duration, category, custom));
      r.Created? && r.payload.category == []
  {
  }

  /** A created timer enters the list paused, full and without alerts. */
  lemma CreatedTimerStartsFull(s: Session, f: Form, now: int)
    requires !AllWhitespace(f.name) && ParseInt(f.duration).Some? && ParseInt(f.duration).value > 0
    requires |f.category| > 0
    ensures HandleCreateTimer(f).Created?
    ensures var t := AddTimer(s, HandleCreateTimer(f).payload, now).timers[|s.timers|];
      t.status == Paused && t.remainingTime == t.duration && t.duration > 0 && t.alerts == []
  {
  }
}

=== FILE: helpers.dfy ===
/** `truncateText` of `utils/helpers.ts`: underscores shown as blanks, and
    text longer than the limit cut and ended with an ellipsis. */
module Helpers {
  import opened TimerTypes

  /** `text.replace(/_/g, " ")`. */
  function ReplaceUnderscores(s: string): (r: string)
    ensures |r| == |s|
    ensures forall i :: 0 <= i < |s| ==> r[i] == if s[i] == '_' then ' ' else s[i]
  {
    if |s| == 0 then []
    else [if s[0] == '_' then ' ' else s[0]] + ReplaceUnderscores(s[1..])
  }

  /** The characters kept by `substring(0, n)` of a text longer than `n`
      (a negative `n` counts as 0). */
  function KeptLength(n: int): nat {
    if n < 0 then 0 else n
  }

  /** `truncateText(text, maxLength)`; `None` is the `undefined` returned
      for the (falsy) empty text. */
  function TruncateText(text: string, maxLength: int): (r: Option<string>)
    ensures r.None? <==> |text| == 0
    ensures r.Some? && |text| <= maxLength ==> r.value == ReplaceUnderscores(text)
    ensures r.Some? && |text| > maxLength ==>
      && |r.value| == KeptLength(maxLength) + 3
      && r.value[..KeptLength(maxLength)] == ReplaceUnderscores(text)[..KeptLength(maxLength)]
      && r.value[KeptLength(maxLength)..] == "..."
  {
    if |text| == 0 then None
    else
      var shown := ReplaceUnderscores(text);
      if |shown| > maxLength then Some(shown[..KeptLength(maxLength)] + "...")
      else Some(shown)
  }

  /** No underscore survives, and every other character of the text is kept
      at its position, up to the cut. */
  lemma TruncatedTextHasNoUnderscore(text: string, maxLength: int)
    requires |text| > 0
    ensures '_' !in TruncateText(text, maxLength).value
    ensures forall i :: 0 <= i < |text| && i < KeptLength(maxLength) && text[i] != '_' ==>
      TruncateText(text, maxLength).value[i] == text[i]
  {
    var r := TruncateText(text, maxLength).value;
    if |text| > maxLength {
      assert r == ReplaceUnderscores(text)[..KeptLength(maxLength)] + "...";
    }
  }

  /** Text within the limit and without underscores comes back unchanged. */
  lemma {:induction false} ShortCleanTextUnchanged(text: string, maxLength: int)
    requires 0 < |text| <= maxLength && '_' !in text
    ensures TruncateText(text, maxLength) == Some(text)
  {
    var r := ReplaceUnderscores(text);
    forall i | 0 <= i < |text| ensures r[i] == text[i] {
      assert text[i] in text;
    }
    assert r == text;
  }

  /** Truncation is a fixed point once the text fits: applying it again to a
      result that already fits changes nothing. */
  lemma TruncateTwiceWhenFits(text: string, maxLength: int)
    requires 0 < |text| <= maxLength
    ensures TruncateText(TruncateText(text, maxLength).value, maxLength) == TruncateText(text, maxLength)
  {
    var r := TruncateText(text, maxLength).value;
    TruncatedTextHasNoUnderscore(text, maxLength);
    ShortCleanTextUnchanged(r, maxLength);
  }
}

=== FILE: js_strings.dfy ===
/** The pieces of JavaScript's string semantics the timer code relies on:
    `String.prototype.trim`, global `parseInt` without a radix, and the
    decimal text of an integer that a template literal produces.
    A `char` stands for one UTF-16 code unit. */
module JsStrings {
  import opened TimerTypes

  /** ECMAScript WhiteSpace and LineTerminator code points (what `trim` and
      `parseInt` skip). */
  predicate IsWhitespace(c: char) {
    || c == '\t' || c == '\n' || c == '\U{000B}' || c == '\U{000C}' || c == '\r'
    || c == ' ' || c == '\U{00A0}' || c == '\U{1680}'
    || ('\U{2000}' <= c <= '\U{200A}')
    || c == '\U{2028}' || c == '\U{2029}' || c == '\U{202F}' || c == '\U{205F}'
    || c == '\U{3000}' || c == '\U{FEFF}'
  }

  predicate AllWhitespace(s: string) {
    forall k :: 0 <= k < |s| ==> IsWhitespace(s[k])
  }

  /** How many whitespace characters `s` starts with. */
  function LeadingWhitespace(s: string): (n: nat)
    ensures n <= |s|
    ensures forall k :: 0 <= k < n ==> IsWhitespace(s[k])
    ensures n < |s| ==> !IsWhitespace(s[n])
  {
    if |s| == 0 || !IsWhitespace(s[0]) then 0
    else 1 + LeadingWhitespace(s[1..])
  }

  /** How many whitespace characters `s` ends with. */
  function TrailingWhitespace(s: string): (n: nat)
    ensures n <= |s|
    ensures forall k :: |s| - n <= k < |s| ==> IsWhitespace(s[k])
    ensures n < |s| ==> !IsWhitespace(s[|s| - n - 1])
  {
    if |s| == 0 || !IsWhitespace(s[|s| - 1]) then 0
    else 1 + TrailingWhitespace(s[..|s| - 1])
  }

  /** `s` with its leading whitespace removed (what `parseInt` skips). */
  function TrimStart(s: string): string {
    s[LeadingWhitespace(s)..]
  }

  /** `String.prototype.trim`: `s` without leading and trailing whitespace. */
  function Trim(s: string): (r: string)
    ensures LeadingWhitespace(s) + |r| <= |s|
    ensures r == s[LeadingWhitespace(s)..LeadingWhitespace(s) + |r|]
    ensures |r| > 0 ==> !IsWhitespace(r[0]) && !IsWhitespace(r[|r| - 1])
    ensures forall k :: 0 <= k < LeadingWhitespace(s) ==> IsWhitespace(s[k])
    ensures forall k :: LeadingWhitespace(s) + |r| <= k < |s| ==> IsWhitespace(s[k])
    ensures |r| == 0 <==> AllWhitespace(s)
  {
    var t := TrimStart(s);
    var n := TrailingWhitespace(t);
    var r := t[..|t| - n];
    assert |r| > 0 ==> r[0] == s[LeadingWhitespace(s)];
    r
  }

  predicate IsDecimalDigit(c: char) { '0' <= c <= '9' }

  predicate IsHexDigit(c: char) {
    IsDecimalDigit(c) || 'a' <= c <= 'f' || 'A' <= c <= 'F'
  }

  predicate IsRadixDigit(c: char, hex: bool) {
    if hex then IsHexDigit(c) else IsDecimalDigit(c)
  }

  predicate AllDecimalDigits(s: string) {
    forall k :: 0 <= k < |s| ==> IsDecimalDigit(s[k])
  }

  /** The numeric value of a digit character (0..15). */
  function DigitValue(c: char): (v: nat)
    requires IsHexDigit(c)
    ensures v < 16
    ensures IsDecimalDigit(c) ==> v < 10
  {
    if IsDecimalDigit(c) then (c - '0') as nat
    else if 'a' <= c <= 'f' then (c - 'a') as nat + 10
    else (c - 'A') as nat + 10
  }

  /** The value of a digit string read most significant digit first. */
  function DigitsValue(s: string, hex: bool): (v: nat)
    requires forall k :: 0 <= k < |s| ==> IsRadixDigit(s[k], hex)
  {
    if |s| == 0 then 0
    else
      assert IsRadixDigit(s[|s| - 1], hex);
      DigitsValue(s[..|s| - 1], hex) * (if hex then 16 else 10) + DigitValue(s[|s| - 1])
  }

  /** The longest prefix of `s` made of digits of the given radix. */
  function DigitRun(s: string, hex: bool): (r: string)
    ensures |r| <= |s| && r == s[..|r|]
    ensures forall k :: 0 <= k < |r| ==> IsRadixDigit(r[k], hex)
    ensures |r| < |s| ==> !IsRadixDigit(s[|r|], hex)
  {
    if |s| == 0 || !IsRadixDigit(s[0], hex) then []
    else [s[0]] + DigitRun(s[1..], hex)
  }

  /** `s` without the sign a numeric literal may start with. */
  function DropSign(s: string): string {
    if |s| > 0 && (s[0] == '-' || s[0] == '+') then s[1..] else s
  }

  predicate HasHexPrefix(s: string) {
    |s| >= 2 && s[0] == '0' && (s[1] == 'x' || s[1] == 'X')
  }

  /** Global `parseInt(s)` without a radix argument: skip leading whitespace,
      take an optional sign, a `0x`/`0X` prefix selects base 16, then read the
      longest run of digits. An empty run is `NaN`, modelled as `None`. */
  function ParseInt(s: string): (r: Option<int>)
    ensures r.None? <==> |DigitRun(Body(s), HasHexPrefix(DropSign(TrimStart(s))))| == 0
  {
    ParseSigned(TrimStart(s))
  }

  /** `parseInt` after the leading whitespace: a `-` negates the magnitude. */
  function ParseSigned(t: string): Option<int> {
    var magnitude := ParseMagnitude(DropSign(t));
    if magnitude.None? then None
    else if |t| > 0 && t[0] == '-' then Some(-(magnitude.value as int))
    else Some(magnitude.value)
  }

  /** `parseInt` after the sign: the value of the longest digit run, in base
      16 after a `0x`/`0X` prefix and in base 10 otherwise. */
  function ParseMagnitude(u: string): Option<nat> {
    var hex := HasHexPrefix(u);
    var run := DigitRun(if hex then u[2..] else u, hex);
    if |run| == 0 then None else Some(DigitsValue(run, hex))
  }

  /** The part of `s` where `parseInt` looks for digits. */
  function Body(s: string): string {
    var u := DropSign(TrimStart(s));
    if HasHexPrefix(u) then u[2..] else u
  }

  /** A non-empty string of decimal digits parses to its own value. */
  lemma ParseIntOfDigits(s: string)
    requires |s| > 0 && AllDecimalDigits(s)
    ensures ParseInt(s) == Some(DigitsValue(s, false))
  {
    assert s + [] == s && [] + s == s && "" + s == s;
    assert !HasHexPrefix(s) by {
      if |s| >= 2 { assert IsDecimalDigit(s[1]); }
    }
    ParseIntDecimal([], "", s, []);
  }

  /** Whitespace in front of a non-whitespace character is exactly what
      `LeadingWhitespace` counts. */
  lemma {:induction false} LeadingWhitespaceOf(w: string, t: string)
    requires AllWhitespace(w)
    requires |t| > 0 && !IsWhitespace(t[0])
    ensures LeadingWhitespace(w + t) == |w|
    ensures TrimStart(w + t) == t
  {
    if |w| > 0 {
      assert (w + t)[0] == w[0];
      assert (w + t)[1..] == w[1..] + t;
      LeadingWhitespaceOf(w[1..], t);
    } else {
      assert w + t == t;
    }
  }

  /** The digit run of `d + tail` is `d` when `tail` does not go on with a
      digit of the same radix. */
  lemma {:induction false} DigitRunStops(d: string, tail: string, hex: bool)
    requires forall k :: 0 <= k < |d| ==> IsRadixDigit(d[k], hex)
    requires |tail| == 0 || !IsRadixDigit(tail[0], hex)
    ensures DigitRun(d + tail, hex) == d
  {
    if |d| > 0 {
      assert (d + tail)[0] == d[0];
      assert (d + tail)[1..] == d[1..] + tail;
      DigitRunStops(d[1..], tail, hex);
    } else {
      assert d + tail == tail;
    }
  }

  /** A magnitude with the sign written in front of it. */
  function Signed(sign: string, v: nat): int {
    if sign == "-" then -(v as int) else v
  }

  /** `parseInt` skips the whitespace in front of the text. */
  lemma ParseIntSkipsWhitespace(w: string, t: string)
    requires AllWhitespace(w)
    requires |t| > 0 && !IsWhitespace(t[0])
    ensures ParseInt(w + t) == ParseSigned(t)
  {
    LeadingWhitespaceOf(w, t);
  }

  /** An optional sign in front of text that starts with no further sign:
      `parseInt` reads the magnitude of that text and negates it after `-`. */
  lemma ParseSignedOf(sign: string, rest: string)
    requires sign == "" || sign == "+" || sign == "-"
    requires |rest| > 0 && rest[0] != '+' && rest[0] != '-'
    ensures |sign + rest| > 0
    ensures !IsWhitespace(rest[0]) ==> !IsWhitespace((sign + rest)[0])
    ensures ParseMagnitude(rest).None? ==> ParseSigned(sign + rest).None?
    ensures forall v: nat :: ParseMagnitude(rest) == Some(v) ==>
      ParseSigned(sign + rest) == Some(Signed(sign, v))
  {
    var t := sign + rest;
    if sign == "" {
      assert t == rest;
    } else {
      assert t[0] == sign[0];
      assert t[1..] == rest;
    }
  }

  /** Whitespace, an optional sign, then text whose magnitude is `v`. */
  lemma ParseIntOfMagnitude(w: string, sign: string, rest: string, v: nat)
    requires AllWhitespace(w)
    requires sign == "" || sign == "+" || sign == "-"
    requires |rest| > 0 && !IsWhitespace(rest[0]) && rest[0] != '+' && rest[0] != '-'
    requires ParseMagnitude(rest) == Some(v)
    ensures ParseInt(w + (sign + rest)) == Some(Signed(sign, v))
  {
    ParseSignedOf(sign, rest);
    assert ParseSigned(sign + rest) == Some(Signed(sign, v));
    ParseIntSkipsWhitespace(w, sign + rest);
  }

  /** Decimal digits followed by text that does not continue them. */
  lemma DecimalMagnitude(d: string, tail: string)
    requires |d| > 0 && AllDecimalDigits(d)
    requires !HasHexPrefix(d + tail)
    requires |tail| == 0 || !IsDecimalDigit(tail[0])
    ensures ParseMagnitude(d + tail) == Some(DigitsValue(d, false))
    ensures var rest := d + tail;
      |rest| > 0 && !IsWhitespace(rest[0]) && rest[0] != '+' && rest[0] != '-'
  {
    assert (d + tail)[0] == d[0];
    DigitRunStops(d, tail, false);
  }

  /** `0x` or `0X`, hex digits, and text that does not continue them. */
  lemma HexMagnitude(x: char, d: string, tail: string)
    requires x == 'x' || x == 'X'
    requires |d| > 0 && forall k :: 0 <= k < |d| ==> IsHexDigit(d[k])
    requires |tail| == 0 || !IsHexDigit(tail[0])
    ensures ParseMagnitude(['0', x] + (d + tail)) == Some(DigitsValue(d, true))
    ensures var rest := ['0', x] + (d + tail);
      |rest| > 0 && !IsWhitespace(rest[0]) && rest[0] != '+' && rest[0] != '-'
  {
    var u := ['0', x] + (d + tail);
    assert u[0] == '0';
    assert u[2..] == d + tail;
    DigitRunStops(d, tail, true);
  }

  /** `parseInt` of decimal text: leading whitespace, an optional sign, the
      digits, then anything that does not continue them (a `.`, a letter, a
      blank). The value is the digits' value, negated after a minus sign. */
  lemma ParseIntDecimal(w: string, sign: string, d: string, tail: string)
    requires AllWhitespace(w)
    requires sign == "" || sign == "+" || sign == "-"
    requires |d| > 0 && AllDecimalDigits(d)
    requires !HasHexPrefix(d + tail)
    requires |tail| == 0 || !IsDecimalDigit(tail[0])
    ensures ParseInt(w + (sign + (d + tail))) ==
      Some(Signed(sign, DigitsValue(d, false)))
  {
    DecimalMagnitude(d, tail);
    ParseIntOfMagnitude(w, sign, d + tail, DigitsValue(d, false));
  }

  /** `parseInt` of hexadecimal text: leading whitespace, an optional sign,
      `0x` or `0X`, the hex digits, then anything that does not continue
      them. The value is the digits' base-16 value, negated after a minus. */
  lemma ParseIntHex(w: string, sign: string, x: char, d: string, tail: string)
    requires AllWhitespace(w)
    requires sign == "" || sign == "+" || sign == "-"
    requires x == 'x' || x == 'X'
    requires |d| > 0 && forall k :: 0 <= k < |d| ==> IsHexDigit(d[k])
    requires |tail| == 0 || !IsHexDigit(tail[0])
    ensures ParseInt(w + (sign + (['0', x] + (d + tail)))) ==
      Some(Signed(sign, DigitsValue(d, true)))
  {
    HexMagnitude(x, d, tail);
    ParseIntOfMagnitude(w, sign, ['0', x] + (d + tail), DigitsValue(d, true));
  }

  /** Text whose first character after the whitespace and the sign is
      neither a digit nor another sign is `NaN`. */
  lemma ParseIntNoDigits(w: string, sign: string, tail: string)
    requires AllWhitespace(w)
    requires sign == "" || sign == "+" || sign == "-"
    requires |tail| == 0 ||
      (!IsDecimalDigit(tail[0]) && !IsWhitespace(tail[0]) && tail[0] != '+' && tail[0] != '-')
    ensures ParseInt(w + (sign + tail)) == None
  {
    if |tail| == 0 {
      assert ParseMagnitude(tail) == None;
      if sign == "" {
        assert w + (sign + tail) == w;
        assert LeadingWhitespace(w) == |w|;
      } else {
        assert sign + tail == sign;
        ParseIntSkipsWhitespace(w, sign);
        assert DropSign(sign) == tail;
      }
    } else {
      assert !HasHexPrefix(tail);
      assert ParseMagnitude(tail) == None;
      ParseSignedOf(sign, tail);
      ParseIntSkipsWhitespace(w, sign + tail);
    }
  }

  lemma {:induction false} DigitRunOfDigits(s: string)
    requires AllDecimalDigits(s)
    ensures DigitRun(s, false) == s
  {
    if |s| > 0 {
      DigitRunOfDigits(s[1..]);
    }
  }

  /** The character of a decimal digit 0..9. */
  function DigitChar(d: nat): (c: char)
    requires d < 10
    ensures IsDecimalDigit(c) && DigitValue(c) == d
  {
    '0' + d as char
  }

  /** The decimal text of a natural number, without leading zeros. */
  function NatToString(n: nat): (r: string)
    ensures |r| > 0 && AllDecimalDigits(r)
    ensures n > 0 ==> r[0] != '0'
  {
    if n < 10 then [DigitChar(n)]
    else NatToString(n / 10) + [DigitChar(n % 10)]
  }

  /** The decimal text a template literal gives an integer. */
  function IntToString(n: int): (r: string)
    ensures |r| > 0
    ensures n < 0 ==> r[0] == '-' && AllDecimalDigits(r[1..])
    ensures n >= 0 ==> AllDecimalDigits(r)
  {
    if n < 0 then "-" + NatToString(-n) else NatToString(n)
  }

  /** Reading back the decimal text of `n` gives `n`. */
  lemma {:induction false} NatToStringValue(n: nat)
    ensures DigitsValue(NatToString(n), false) == n
  {
    var r := NatToString(n);
    if n >= 10 {
      NatToStringValue(n / 10);
      assert r[..|r| - 1] == NatToString(n / 10);
    }
  }

  /** `parseInt` inverts the decimal rendering of any integer. */
  lemma ParseIntOfIntToString(n: int)
    ensures ParseInt(IntToString(n)) == Some(n)
  {
    var d := NatToString(if n < 0 then -n else n);
    NatToStringValue(if n < 0 then -n else n);
    DigitRunOfDigits(d);
    assert !HasHexPrefix(d) by {
      if |d| >= 2 { assert IsDecimalDigit(d[1]); }
    }
    if n < 0 {
      var s := IntToString(n);
      assert s == "-" + d;
      assert TrimStart(s) == s;
      assert DropSign(s) == d;
    } else {
      assert TrimStart(d) == d;
      assert DropSign(d) == d;
    }
  }
}

=== FILE: timer_context.dfy ===
/** The state transitions of the timer provider (`context/TimerContext.tsx`),
    each a pure function from one `Session` (timer list, history log,
    last-tick table) to the next. `now` is the millisecond clock, `isoNow`
    its ISO text; interval and animation-frame handles are not modelled. */
module TimerContext {
  import opened TimerTypes
  import opened TimerOperations
  import opened TimerStateUpdates

  /** What a caller hands to `addTimer`: a timer without id, status and
      remaining time; `alerts` may be missing. */
  datatype NewTimer = NewTimer(
    name: string,
    category: string,
    duration: int,
    alerts: Option<seq<TimerAlert>>,
    lastUpdated: Option<int>)

  /** `addTimer`: one paused, full timer with id `now` is appended. */
  function AddTimer(s: Session, nt: NewTimer, now: int): (r: Session)
    ensures |r.timers| == |s.timers| + 1
    ensures r.timers[..|s.timers|] == s.timers
    ensures var t := r.timers[|s.timers|];
      && t.id == now && t.name == nt.name && t.category == nt.category
      && t.duration == nt.duration && t.remainingTime == nt.duration
      && t.status == Paused && t.lastUpdated == nt.lastUpdated
      && (nt.alerts.None? ==> t.alerts == [])
      && (nt.alerts.Some? ==> t.alerts == nt.alerts.value)
    ensures r.history == s.history && r.lastTick == s.lastTick
  {
    var alerts := if nt.alerts.Some? then nt.alerts.value else [];
    var t := Timer(now, nt.name, nt.category, nt.duration, nt.duration, Paused, alerts, nt.lastUpdated);
    s.(timers := s.timers + [t])
  }

  /** Whether `startTimer(id)` acts on this timer. */
  predicate Startable(t: Timer, id: int) {
    t.id == id && t.status != Completed
  }

  /** `startTimer(id)`: the matching timers that are not completed become
      running with `lastUpdated = now`, and their last tick is set to `now`. */
  function StartTimer(s: Session, id: int, now: int): (r: Session)
    ensures |r.timers| == |s.timers| && r.history == s.history
    ensures forall i :: 0 <= i < |s.timers| && !Startable(s.timers[i], id) ==> r.timers[i] == s.timers[i]
    ensures forall i :: 0 <= i < |s.timers| && Startable(s.timers[i], id) ==>
      r.timers[i].status == Running && r.timers[i].lastUpdated == Some(now)
      && r.timers[i].(status := s.timers[i].status, lastUpdated := s.timers[i].lastUpdated) == s.timers[i]
    ensures (exists t :: t in s.timers && Startable(t, id)) ==> r.lastTick == s.lastTick[id := now]
    ensures (forall t :: t in s.timers ==> !Startable(t, id)) ==> r == s
  {
    var timers := seq(|s.timers|, i requires 0 <= i < |s.timers| =>
      if Startable(s.timers[i], id) then s.timers[i].(status := Running, lastUpdated := Some(now))
      else s.timers[i]);
    if exists t :: t in s.timers && Startable(t, id) then
      Session(timers, s.history, s.lastTick[id := now])
    else
      assert timers == s.timers;
      s
  }

  /** `pauseTimer(id)`: every matching timer becomes paused with
      `lastUpdated = now`, whatever its status, completed included. */
  function PauseTimer(s: Session, id: int, now: int): (r: Session)
    ensures |r.timers| == |s.timers| && r.history == s.history && r.lastTick == s.lastTick
    ensures forall i :: 0 <= i < |s.timers| && s.timers[i].id != id ==> r.timers[i] == s.timers[i]
    ensures forall i :: 0 <= i < |s.timers| && s.timers[i].id == id ==>
      r.timers[i].status == Paused && r.timers[i].lastUpdated == Some(now)
      && r.timers[i].(status := s.timers[i].status, lastUpdated := s.timers[i].lastUpdated) == s.timers[i]
  {
    var timers := seq(|s.timers|, i requires 0 <= i < |s.timers| =>
      if s.timers[i].id == id then s.timers[i].(status := Paused, lastUpdated := Some(now))
      else s.timers[i]);
    s.(timers := timers)
  }

  /** `resetTimer(id)`: every matching timer becomes paused and full with all
      alerts re-armed; `lastUpdated` is left as it was. */
  function ResetTimer(s: Session, id: int): (r: Session)
    ensures |r.timers| == |s.timers| && r.history == s.history && r.lastTick == s.lastTick
    ensures forall i :: 0 <= i < |s.timers| && s.timers[i].id != id ==> r.timers[i] == s.timers[i]
    ensures forall i :: 0 <= i < |s.timers| && s.timers[i].id == id ==>
      var t, u := s.timers[i], r.timers[i];
      && u.status == Paused && u.remainingTime == t.duration
      && u.id == t.id && u.name == t.name && u.category == t.category
      && u.duration == t.duration && u.lastUpdated == t.lastUpdated
      && |u.alerts| == |t.alerts|
      && forall k :: 0 <= k < |u.alerts| ==>
           u.alerts[k].percentage == t.alerts[k].percentage && !u.alerts[k].triggered
  {
    var timers := seq(|s.timers|, i requires 0 <= i < |s.timers| =>
      if s.timers[i].id == id then
        s.timers[i].(status := Paused, remainingTime := s.timers[i].duration,
                     alerts := ClearTriggers(s.timers[i].alerts))
      else s.timers[i]);
    s.(timers := timers)
  }

  /** The last tick of `id`, or `now` when there is none (a stored zero is
      falsy and counts as none). */
  function LastTickOr(lastTick: map<int, int>, id: int, now: int): int {
    if id in lastTick && lastTick[id] != 0 then lastTick[id] else now
  }

  /** Whole seconds elapsed since the last tick, rounded down. */
  function ElapsedSeconds(lastTick: map<int, int>, id: int, now: int): (e: int)
    ensures e * 1000 <= now - LastTickOr(lastTick, id, now) < (e + 1) * 1000
    ensures id !in lastTick || lastTick[id] == 0 ==> e == 0
  {
    (now - LastTickOr(lastTick, id, now)) / 1000
  }

  /** Result of one tick: the next session and, when the timer completed,
      the name shown by the completion modal. */
  datatype TickOutcome = TickOutcome(session: Session, completedName: Option<string>)

  /** Every timer with this id completed at zero. */
  function CompleteAll(timers: seq<Timer>, id: int): (r: seq<Timer>)
    ensures |r| == |timers|
    ensures forall i :: 0 <= i < |r| && timers[i].id != id ==> r[i] == timers[i]
    ensures forall i :: 0 <= i < |r| && timers[i].id == id ==>
      r[i] == timers[i].(remainingTime := 0, status := Completed)
  {
    seq(|timers|, i requires 0 <= i < |timers| =>
      if timers[i].id == id then timers[i].(remainingTime := 0, status := Completed) else timers[i])
  }

  /** Every timer with this id given the remaining time `remaining`. */
  function SetRemaining(timers: seq<Timer>, id: int, remaining: int): (r: seq<Timer>)
    ensures |r| == |timers|
    ensures forall i :: 0 <= i < |r| && timers[i].id != id ==> r[i] == timers[i]
    ensures forall i :: 0 <= i < |r| && timers[i].id == id ==>
      r[i] == timers[i].(remainingTime := remaining)
  {
    seq(|timers|, i requires 0 <= i < |timers| =>
      if timers[i].id == id then timers[i].(remainingTime := remaining) else timers[i])
  }

  /** `updateRemainingTime(id)`, one tick of timer `id`. */
  function UpdateRemainingTime(s: Session, id: int, now: int, isoNow: string): (r: TickOutcome)
    ensures |r.session.timers| == |s.timers|
    ensures forall i :: 0 <= i < |s.timers| ==> r.session.timers[i].id == s.timers[i].id
    ensures forall i :: 0 <= i < |s.timers| && s.timers[i].id != id ==> r.session.timers[i] == s.timers[i]
    ensures r.completedName.None? ==> r.session.history == s.history
    ensures r.completedName.Some? ==>
      |r.session.history| == |s.history| + 1 && r.session.history[..|s.history|] == s.history
    ensures r.completedName.Some? ==>
      (Find(s.timers, id).Some? &&
       r.session.history == s.history + [CreateHistoryItem(Find(s.timers, id).value, now, isoNow)])
    ensures r.completedName.Some? ==> forall i :: 0 <= i < |s.timers| && s.timers[i].id == id ==>
      r.session.timers[i] == s.timers[i].(remainingTime := 0, status := Completed)
  {
    var elapsed := ElapsedSeconds(s.lastTick, id, now);
    if elapsed == 0 then TickOutcome(s, None)
    else
      var ticked := s.lastTick[id := now];
      match Find(s.timers, id)
      case None => TickOutcome(s.(lastTick := ticked), None)
      case Some(cur) =>
        if cur.status != Running then TickOutcome(s.(lastTick := ticked), None)
        else
          var remaining := cur.remainingTime - elapsed;
          if remaining <= 0 then
            var item := CreateHistoryItem(cur, now, isoNow);
            TickOutcome(Session(CompleteAll(s.timers, id), s.history + [item], ticked - {id}), Some(cur.name))
          else
            TickOutcome(s.(timers := SetRemaining(s.timers, id, remaining), lastTick := ticked), None)
  }

  /** A tick less than a second after the last one changes nothing, not even
      the last-tick table; otherwise the last tick becomes exactly `now`
      (the sub-second remainder is dropped) unless the timer completed. */
  lemma TickClock(s: Session, id: int, now: int, isoNow: string)
    ensures var r := UpdateRemainingTime(s, id, now, isoNow);
      && (ElapsedSeconds(s.lastTick, id, now) == 0 ==> r == TickOutcome(s, None))
      && (ElapsedSeconds(s.lastTick, id, now) != 0 && r.completedName.None? ==>
            r.session.lastTick == s.lastTick[id := now])
      && (r.completedName.Some? ==> r.session.lastTick == s.lastTick - {id})
  {
  }

  /** A tick of a missing or non-running timer changes no timer and records
      no completion. */
  lemma TickOfIdleTimer(s: Session, id: int, now: int, isoNow: string)
    requires Find(s.timers, id).None? || Find(s.timers, id).value.status != Running
    ensures UpdateRemainingTime(s, id, now, isoNow).session.timers == s.timers
    ensures UpdateRemainingTime(s, id, now, isoNow).session.history == s.history
    ensures UpdateRemainingTime(s, id, now, isoNow).completedName.None?
  {
  }

  /** A tick that leaves time on a running timer only lowers the remaining
      time of the timers carrying that id, by the elapsed whole seconds. */
  lemma TickNotFinal(s: Session, id: int, now: int, isoNow: string)
    requires ElapsedSeconds(s.lastTick, id, now) != 0
    requires Find(s.timers, id).Some? && Find(s.timers, id).value.status == Running
    requires Find(s.timers, id).value.remainingTime - ElapsedSeconds(s.lastTick, id, now) > 0
    ensures var r := UpdateRemainingTime(s, id, now, isoNow);
      var rem := Find(s.timers, id).value.remainingTime - ElapsedSeconds(s.lastTick, id, now);
      && r.completedName.None?
      && r.session.history == s.history
      && forall i :: 0 <= i < |s.timers| && s.timers[i].id == id ==>
           r.session.timers[i] == s.timers[i].(remainingTime := rem)
  {
  }

  /** A tick that exhausts a running timer completes it at zero, appends one
      history item copied from it and forgets its last tick. */
  lemma TickFinal(s: Session, id: int, now: int, isoNow: string)
    requires ElapsedSeconds(s.lastTick, id, now) != 0
    requires Find(s.timers, id).Some? && Find(s.timers, id).value.status == Running
    requires Find(s.timers, id).value.remainingTime - ElapsedSeconds(s.lastTick, id, now) <= 0
    ensures var r := UpdateRemainingTime(s, id, now, isoNow);
      var cur := Find(s.timers, id).value;
      && r.completedName == Some(cur.name)
      && r.session.history == s.history + [CreateHistoryItem(cur, now, isoNow)]
      && (var h := r.session.history[|s.history|];
          h.name == cur.name && h.category == cur.category && h.duration == cur.duration
          && h.id == now && h.completedAt == isoNow)
      && id !in r.session.lastTick
      && forall i :: 0 <= i < |s.timers| && s.timers[i].id == id ==>
           r.session.timers[i] == s.timers[i].(remainingTime := 0, status := Completed)
  {
  }

  /** After a completing tick, the timer `find` sees for `id` is completed. */
  lemma {:induction false} CompletedAfterFinalTick(s: Session, id: int, now: int, isoNow: string)
    requires UpdateRemainingTime(s, id, now, isoNow).completedName.Some?
    ensures var t := Find(UpdateRemainingTime(s, id, now, isoNow).session.timers, id);
      t.Some? && t.value.status == Completed
  {
    var r := UpdateRemainingTime(s, id, now, isoNow).session.timers;
    FindIndexKeptByIds(s.timers, r, id);
  }

  /** The timer seen for `id` is completed, and ticks keep it that way. */
  predicate CompletedFor(s: Session, id: int) {
    Find(s.timers, id).Some? && Find(s.timers, id).value.status == Completed
  }

  /** A tick of a completed timer keeps it completed and appends nothing. */
  lemma TickKeepsCompleted(s: Session, id: int, now: int, isoNow: string)
    requires CompletedFor(s, id)
    ensures CompletedFor(UpdateRemainingTime(s, id, now, isoNow).session, id)
    ensures UpdateRemainingTime(s, id, now, isoNow).session.history == s.history
    ensures UpdateRemainingTime(s, id, now, isoNow).completedName.None?
  {
  }

  /** Ticking `id` at each clock reading of `clocks` in turn. */
  function TickAll(s: Session, id: int, clocks: seq<int>, isoNow: string): (r: Session)
    ensures |r.timers| == |s.timers|
    decreases |clocks|
  {
    if |clocks| == 0 then s
    else TickAll(UpdateRemainingTime(s, id, clocks[0], isoNow).session, id, clocks[1..], isoNow)
  }

  /** Exactly-once completion: after the tick that completes a timer, any
      number of later ticks of it leave the history as it is. */
  lemma {:induction false} LaterTicksAppendNothing(s: Session, id: int, now: int, isoNow: string, clocks: seq<int>)
    requires UpdateRemainingTime(s, id, now, isoNow).completedName.Some?
    ensures var done := UpdateRemainingTime(s, id, now, isoNow).session;
      TickAll(done, id, clocks, isoNow).history == done.history
  {
    CompletedAfterFinalTick(s, id, now, isoNow);
    TicksOfCompletedTimer(UpdateRemainingTime(s, id, now, isoNow).session, id, clocks, isoNow);
  }

  lemma {:induction false} TicksOfCompletedTimer(s: Session, id: int, clocks: seq<int>, isoNow: string)
    requires CompletedFor(s, id)
    ensures TickAll(s, id, clocks, isoNow).history == s.history
    decreases |clocks|
  {
    if |clocks| > 0 {
      TickKeepsCompleted(s, id, clocks[0], isoNow);
      TicksOfCompletedTimer(UpdateRemainingTime(s, id, clocks[0], isoNow).session, id, clocks[1..], isoNow);
    }
  }

  /** `updateRemainingTime(id)` as the provider is written. Its
      `createHistoryItem` is imported from `utils/timerOperations.ts`, which
      does not export it, so the completing branch throws at that call: the
      intervals and the last tick are already cleared, but no state update,
      history item or modal follows. Every other branch is the tick above. */
  function UpdateRemainingTimeAsWritten(s: Session, id: int, now: int, isoNow: string): (r: TickOutcome)
    ensures r.completedName.None? && r.session.history == s.history
  {
    var elapsed := ElapsedSeconds(s.lastTick, id, now);
    if elapsed == 0 then TickOutcome(s, None)
    else
      var ticked := s.lastTick[id := now];
      match Find(s.timers, id)
      case None => TickOutcome(s.(lastTick := ticked), None)
      case Some(cur) =>
        if cur.status != Running then TickOutcome(s.(lastTick := ticked), None)
        else
          var remaining := cur.remainingTime - elapsed;
          if remaining <= 0 then
            TickOutcome(s.(lastTick := ticked - {id}), None)
          else
            TickOutcome(s.(timers := SetRemaining(s.timers, id, remaining), lastTick := ticked), None)
  }

  /** The written tick differs from the intended one only where the intended
      one completes the timer: there it keeps every timer as it was and only
      forgets the last tick. */
  lemma AsWrittenDiffersOnlyOnCompletion(s: Session, id: int, now: int, isoNow: string)
    ensures var r, w := UpdateRemainingTime(s, id, now, isoNow), UpdateRemainingTimeAsWritten(s, id, now, isoNow);
      && (r.completedName.None? ==> w == r)
      && (r.completedName.Some? ==> w.session.timers == s.timers && w.session.lastTick == s.lastTick - {id})
  {
  }

  /** As written, the tick that should complete a timer leaves it running at
      its old remaining time and records nothing, and from then on every tick
      of it changes nothing, because its last tick is gone. */
  lemma AsWrittenFinalTickLeavesTimerRunning(s: Session, id: int, now: int, isoNow: string, later: int)
    requires ElapsedSeconds(s.lastTick, id, now) != 0
    requires Find(s.timers, id).Some? && Find(s.timers, id).value.status == Running
    requires Find(s.timers, id).value.remainingTime - ElapsedSeconds(s.lastTick, id, now) <= 0
    ensures var r := UpdateRemainingTimeAsWritten(s, id, now, isoNow);
      && Find(r.session.timers, id) == Find(s.timers, id)
      && r.session.history == s.history
      && UpdateRemainingTimeAsWritten(r.session, id, later, isoNow) == TickOutcome(r.session, None)
    ensures UpdateRemainingTime(s, id, now, isoNow).completedName.Some?
  {
  }

  /** A concrete case: a running timer with one second left, last ticked at
      1000 ms and ticked at 2000 ms, is completed and recorded by the intended
      tick but stays running with no history as written. */
  lemma AsWrittenFinalTickExample()
    ensures var t := Timer(1, "Tea", "Kitchen", 60, 1, Running, [], None);
      var s := Session([t], [], map[1 := 1000]);
      && UpdateRemainingTimeAsWritten(s, 1, 2000, "iso").session.timers == [t]
      && UpdateRemainingTimeAsWritten(s, 1, 2000, "iso").session.history == []
      && UpdateRemainingTime(s, 1, 2000, "iso").session.timers[0].status == Completed
      && |UpdateRemainingTime(s, 1, 2000, "iso").session.history| == 1
  {
    var t := Timer(1, "Tea", "Kitchen", 60, 1, Running, [], None);
    var s := Session([t], [], map[1 := 1000]);
    assert ElapsedSeconds(s.lastTick, 1, 2000) == 1;
    assert Find(s.timers, 1) == Some(t);
  }

  /** `startCategoryTimers(category)`. `ticking` is the set of ids that
      already own an interval; only the others get their last tick set. */
  function StartCategoryTimers(s: Session, category: string, now: int, ticking: set<int>): (r: Session)
    ensures r.timers == UpdateTimersInCategory(s.timers, category, Start, now)
    ensures r.history == s.history
    ensures forall k :: k in r.lastTick <==> k in s.lastTick || k in StartedIds(s.timers, category, ticking)
    ensures forall k :: k in r.lastTick ==>
      r.lastTick[k] == if k in StartedIds(s.timers, category, ticking) then now else s.lastTick[k]
  {
    var timers := seq(|s.timers|, i requires 0 <= i < |s.timers| =>
      var t := s.timers[i];
      if t.category == category && t.status != Completed then t.(status := Running, lastUpdated := Some(now))
      else t);
    var started := StartedIds(s.timers, category, ticking);
    var lastTick := map k | k in s.lastTick.Keys + started :: if k in started then now else s.lastTick[k];
    Session(timers, s.history, lastTick)
  }

  /** Ids of the category's non-completed timers without an interval yet. */
  function StartedIds(timers: seq<Timer>, category: string, ticking: set<int>): set<int> {
    set t | t in timers && t.category == category && t.status != Completed && t.id !in ticking :: t.id
  }

  /** `pauseCategoryTimers(category)`: the category's running timers become
      paused; `lastUpdated` is not stamped and nothing else changes. */
  function PauseCategoryTimers(s: Session, category: string): (r: Session)
    ensures |r.timers| == |s.timers| && r.history == s.history && r.lastTick == s.lastTick
    ensures forall i :: 0 <= i < |s.timers| ==>
      var t := s.timers[i];
      r.timers[i] == if t.category == category && t.status == Running then t.(status := Paused) else t
    ensures forall t :: t in r.timers && t.category == category ==> t.status != Running
  {
    var timers := seq(|s.timers|, i requires 0 <= i < |s.timers| =>
      var t := s.timers[i];
      if t.category == category && t.status == Running then t.(status := Paused) else t);
    s.(timers := timers)
  }

  /** `resetCategoryTimers(category)`: the bulk reset of `updateTimersInCategory`. */
  function ResetCategoryTimers(s: Session, category: string, now: int): (r: Session)
    ensures r.timers == UpdateTimersInCategory(s.timers, category, Reset, now)
    ensures r.history == s.history && r.lastTick == s.lastTick
    ensures |r.timers| == |s.timers|
    ensures forall i :: 0 <= i < |s.timers| && s.timers[i].category == category ==>
      var t, u := s.timers[i], r.timers[i];
      && u.status == Paused && u.remainingTime == t.duration && u.lastUpdated == Some(now)
      && u.id == t.id && u.name == t.name && u.duration == t.duration
      && |u.alerts| == |t.alerts|
      && forall k :: 0 <= k < |u.alerts| ==>
           u.alerts[k].percentage == t.alerts[k].percentage && !u.alerts[k].triggered
    ensures forall i :: 0 <= i < |s.timers| && s.timers[i].category != category ==> r.timers[i] == s.timers[i]
  {
    var timers := UpdateTimersInCategory(s.timers, category, Reset, now);
    assert forall i :: 0 <= i < |s.timers| && s.timers[i].category == category ==>
      timers[i] == ApplyOperation(s.timers[i], Reset, now);
    s.(timers := timers)
  }

  /** An alert handed to the alert modal. */
  datatype AlertFired = AlertFired(timer: Timer, percentage: int)

  /** Result of an alert check: the next session and the alert shown, if any. */
  datatype AlertOutcome = AlertOutcome(session: Session, fired: Option<AlertFired>)

  /** `checkAlerts(timer)`: `timer` is the snapshot the tick scheduled the
      check with; the next alert is chosen from the list's own copy of the
      timer, and when one fires every threshold the snapshot has reached is
      consumed at once. */
  function CheckAlerts(s: Session, timer: Timer): (r: AlertOutcome)
    ensures r.session.history == s.history && r.session.lastTick == s.lastTick
    ensures |r.session.timers| == |s.timers|
    ensures forall i :: 0 <= i < |s.timers| ==> r.session.timers[i].id == s.timers[i].id
    ensures forall i :: 0 <= i < |s.timers| && s.timers[i].id != timer.id ==> r.session.timers[i] == s.timers[i]
    ensures r.fired.Some? ==> timer.status == Running && Find(s.timers, timer.id).Some?
    ensures r.fired.Some? ==>
      var next := GetNextAlert(Find(s.timers, timer.id).value);
      next.Some? && r.fired.value == AlertFired(timer, next.value.percentage)
    ensures r.fired.Some? ==> forall i :: 0 <= i < |s.timers| && s.timers[i].id == timer.id ==>
      r.session.timers[i] == s.timers[i].(alerts := UpdateTimerAlerts(s.timers[i].alerts, ProgressOf(timer)))
    ensures r.fired.None? ==> r.session == s
    ensures (timer.status == Running && Find(s.timers, timer.id).Some? &&
             GetNextAlert(Find(s.timers, timer.id).value).Some?) ==> r.fired.Some?
  {
    if timer.status != Running then AlertOutcome(s, None)
    else match Find(s.timers, timer.id)
      case None => AlertOutcome(s, None)
      case Some(cur) =>
        match GetNextAlert(cur)
        case None => AlertOutcome(s, None)
        case Some(a) =>
          var timers := seq(|s.timers|, i requires 0 <= i < |s.timers| =>
            if s.timers[i].id == timer.id
            then s.timers[i].(alerts := UpdateTimerAlerts(s.timers[i].alerts, ProgressOf(timer)))
            else s.timers[i]);
          AlertOutcome(s.(timers := timers), Some(AlertFired(timer, a.percentage)))
  }

  /** The alert check consumes every reached threshold at once: when the
      snapshot is the list's own copy, nothing is left to fire afterwards,
      even if several thresholds were crossed. */
  lemma {:induction false} CheckAlertsConsumesAllCrossed(s: Session, timer: Timer)
    requires Find(s.timers, timer.id) == Some(timer)
    requires CheckAlerts(s, timer).fired.Some?
    ensures var t := Find(CheckAlerts(s, timer).session.timers, timer.id);
      t.Some? && GetNextAlert(t.value).None?
  {
    var r := CheckAlerts(s, timer).session.timers;
    FindIndexKeptByIds(s.timers, r, timer.id);
    var k := FindIndex(s.timers, timer.id).value;
    assert r[k] == timer.(alerts := UpdateTimerAlerts(timer.alerts, ProgressOf(timer)));
    NothingToFireAfterUpdate(timer.alerts, ProgressOf(timer));
  }

  /** A running timer's check fires exactly when its own copy in the list
      has a reached, untriggered threshold, and fires the lowest of them. */
  lemma CheckAlertsFiresLowest(s: Session, timer: Timer, i: int)
    requires timer.status == Running && Find(s.timers, timer.id) == Some(timer)
    requires 0 <= i < |timer.alerts| && Eligible(timer.alerts[i], ProgressOf(timer))
    ensures CheckAlerts(s, timer).fired.Some?
    ensures CheckAlerts(s, timer).fired.value.percentage <= timer.alerts[i].percentage
  {
    NextEligibleIsLowest(timer.alerts, ProgressOf(timer), i);
  }
}

=== FILE: timer_header.dfy ===
/** The category header of `components/timer/TimerHeader.tsx`: whether any
    of the category's timers runs, and which bulk operation each of its two
    buttons dispatches. */
module TimerHeader {
  import opened TimerTypes
  import opened TimerOperations
  import opened TimerContext

  /** `isAnyRunning`: some timer of `categoryTimers` is running. */
  predicate IsAnyRunning(timers: seq<Timer>, category: string) {
    exists t :: t in InCategory(timers, category) && t.status == Running
  }

  /** `isAnyRunning` looks at exactly the category's timers. */
  lemma IsAnyRunningMeansSomeRunning(timers: seq<Timer>, category: string)
    ensures IsAnyRunning(timers, category) <==>
      exists i :: 0 <= i < |timers| && timers[i].category == category && timers[i].status == Running
  {
    if IsAnyRunning(timers, category) {
      var t :| t in InCategory(timers, category) && t.status == Running;
      var i :| 0 <= i < |timers| && timers[i] == t;
    }
    if exists i :: 0 <= i < |timers| && timers[i].category == category && timers[i].status == Running {
      var i :| 0 <= i < |timers| && timers[i].category == category && timers[i].status == Running;
      assert timers[i] in InCategory(timers, category);
    }
  }

  /** The argument `handleAction` receives. */
  datatype CategoryAction = StartAll | PauseAll | ResetAll

  /** The header's two buttons. */
  datatype Button = PrimaryButton | ResetButton

  /** The action a button press hands to `handleAction`: the primary button
      pauses when something runs and starts otherwise; reset always resets. */
  function ActionFor(b: Button, timers: seq<Timer>, category: string): (r: CategoryAction)
    ensures b == ResetButton ==> r == ResetAll
    ensures b == PrimaryButton ==> r != ResetAll && (r == PauseAll <==> IsAnyRunning(timers, category))
  {
    match b
    case PrimaryButton => if IsAnyRunning(timers, category) then PauseAll else StartAll
    case ResetButton => ResetAll
  }

  /** `handleAction(action)`: the provider's bulk operation for the category.
      `ticking` is the set of timer ids that already own an interval. */
  function HandleAction(s: Session, category: string, action: CategoryAction, now: int, ticking: set<int>): (r: Session)
    ensures action == StartAll ==> r.timers == UpdateTimersInCategory(s.timers, category, Start, now)
    ensures action == StartAll ==>
      forall k :: k in r.lastTick <==> k in s.lastTick || k in StartedIds(s.timers, category, ticking)
    ensures action == StartAll ==> forall k :: k in r.lastTick ==>
      r.lastTick[k] == if k in StartedIds(s.timers, category, ticking) then now else s.lastTick[k]
    ensures action == PauseAll ==> !IsAnyRunning(r.timers, category)
    ensures action == PauseAll ==> r.lastTick == s.lastTick && |r.timers| == |s.timers|
    ensures action == PauseAll ==> forall i :: 0 <= i < |s.timers| ==>
      r.timers[i] == if s.timers[i].category == category && s.timers[i].status == Running
                     then s.timers[i].(status := Paused) else s.timers[i]
    ensures action == ResetAll ==> r.timers == UpdateTimersInCategory(s.timers, category, Reset, now)
    ensures action == ResetAll ==> r.lastTick == s.lastTick
    ensures r.history == s.history
  {
    match action
    case StartAll => StartCategoryTimers(s, category, now, ticking)
    case PauseAll => PauseCategoryTimers(s, category)
    case ResetAll => ResetCategoryTimers(s, category, now)
  }

  /** Pressing the header's primary button at `now`: the bulk pause when a
      timer of the category runs, the bulk start otherwise. */
  function PressPrimary(s: Session, category: string, now: int, ticking: set<int>): (r: Session)
    ensures IsAnyRunning(s.timers, category) ==> !IsAnyRunning(r.timers, category) && r.lastTick == s.lastTick
    ensures !IsAnyRunning(s.timers, category) ==>
      r.timers == UpdateTimersInCategory(s.timers, category, Start, now)
    ensures r.history == s.history
  {
    HandleAction(s, category, ActionFor(PrimaryButton, s.timers, category), now, ticking)
  }

  /** After "Pause All" no timer of the category runs, so the next press of
      the same button is "Start All". */
  lemma PauseAllThenStartAll(s: Session, category: string, now: int, ticking: set<int>)
    requires IsAnyRunning(s.timers, category)
    ensures var after := PressPrimary(s, category, now, ticking);
      ActionFor(PrimaryButton, after.timers, category) == StartAll
  {
  }

  /** After "Start All" on a category with a timer that is not completed,
      something runs, so the next press of the same button is "Pause All". */
  lemma StartAllThenPauseAll(s: Session, category: string, now: int, ticking: set<int>, i: int)
    requires !IsAnyRunning(s.timers, category)
    requires 0 <= i < |s.timers| && s.timers[i].category == category && s.timers[i].status != Completed
    ensures var after := PressPrimary(s, category, now, ticking);
      ActionFor(PrimaryButton, after.timers, category) == PauseAll
  {
    var after := PressPrimary(s, category, now, ticking);
    assert after.timers[i] == ApplyOperation(s.timers[i], Start, now);
    IsAnyRunningMeansSomeRunning(after.timers, category);
  }

  /** The reset button resets whatever the statuses are: every timer of the
      category ends paused and full. */
  lemma ResetButtonResetsAll(s: Session, category: string, now: int, ticking: set<int>)
    ensures var after := HandleAction(s, category, ActionFor(ResetButton, s.timers, category), now, ticking);
      forall t :: t in after.timers && t.category == category ==>
        t.status == Paused && t.remainingTime == t.duration
  {
    var after := HandleAction(s, category, ResetAll, now, ticking);
    forall t | t in after.timers && t.category == category
      ensures t.status == Paused && t.remainingTime == t.duration
    {
      var i :| 0 <= i < |after.timers| && after.timers[i] == t;
      assert s.timers[i].category == category;
    }
  }
}

=== FILE: timer_list.dfy ===
/** The list screen of `components/timer/TimerList.tsx`: which provider call
    the play/pause button makes, and how the timers are grouped by category
    under an optional category filter. */
module TimerList {
  import opened TimerTypes
  import opened TimerContext

  /** The provider call `handlePlayPause` makes. */
  datatype PlayPause = DispatchPause | DispatchStart

  /** `handlePlayPause(id)`: pause when the timer `find` returns is running,
      start otherwise, an unknown id included. */
  function HandlePlayPause(timers: seq<Timer>, id: int): (r: PlayPause)
    ensures r == DispatchPause <==>
      (exists i :: 0 <= i < |timers| && timers[i].id == id
         && (forall j :: 0 <= j < i ==> timers[j].id != id) && timers[i].status == Running)
  {
    var found := Find(timers, id);
    if found.Some? && found.value.status == Running then DispatchPause else DispatchStart
  }

  /** The session after the play/pause button of `id` is pressed at `now`. */
  function PressPlayPause(s: Session, id: int, now: int): Session {
    match HandlePlayPause(s.timers, id)
    case DispatchPause => PauseTimer(s, id, now)
    case DispatchStart => StartTimer(s, id, now)
  }

  /** The button toggles the timer it shows: running becomes paused, paused
      becomes running, and a completed timer stays as it is. */
  lemma PlayPauseToggles(s: Session, id: int, now: int)
    requires Find(s.timers, id).Some?
    ensures var before := Find(s.timers, id).value;
      var after := Find(PressPlayPause(s, id, now).timers, id);
      && after.Some?
      && (before.status == Running ==> after.value.status == Paused)
      && (before.status == Paused ==> after.value.status == Running)
      && (before.status == Completed ==> after.value == before)
  {
    var r := PressPlayPause(s, id, now);
    FindIndexKeptByIds(s.timers, r.timers, id);
  }

  /** The timers the list shows: those of the selected category, or all of
      them when no category (or the falsy empty one) is selected. */
  function Shown(timers: seq<Timer>, selected: Option<string>): (r: seq<Timer>)
    ensures selected.None? || selected.value == [] ==> r == timers
    ensures selected.Some? && selected.value != [] ==>
      forall t :: t in r <==> t in timers && t.category == selected.value
  {
    if selected.Some? && selected.value != [] then InCategory(timers, selected.value) else timers
  }

  /** The names a plain object literal inherits from `Object.prototype`:
      looking one of them up on `{}` finds a truthy member that is not an
      array. */
  const InheritedKeys: set<string> := {
    "constructor", "hasOwnProperty", "isPrototypeOf", "propertyIsEnumerable",
    "toLocaleString", "toString", "valueOf", "__proto__",
    "__defineGetter__", "__defineSetter__", "__lookupGetter__", "__lookupSetter__"}

  /** No timer's category is an inherited name. */
  predicate PlainCategories(ts: seq<Timer>) {
    forall t :: t in ts ==> t.category !in InheritedKeys
  }

  /** Appends `t` to its category's group, creating the group if needed. */
  function AddToGroup(groups: map<string, seq<Timer>>, t: Timer): map<string, seq<Timer>> {
    groups[t.category := GroupOf(groups, t.category) + [t]]
  }

  /** The group of `category`, empty when it does not exist yet. */
  function GroupOf(groups: map<string, seq<Timer>>, category: string): seq<Timer> {
    if category in groups then groups[category] else []
  }

  /** The `forEach` over `ts`, starting from `groups`. A category that is an
      inherited name and not yet an own key passes the `!groups[...]` test
      without a group being made, and the `push` on the inherited member
      throws: `None`. */
  function GroupAll(groups: map<string, seq<Timer>>, ts: seq<Timer>): Option<map<string, seq<Timer>>>
    decreases |ts|
  {
    if |ts| == 0 then Some(groups)
    else if ts[0].category in InheritedKeys && ts[0].category !in groups then None
    else GroupAll(AddToGroup(groups, ts[0]), ts[1..])
  }

  /** `groupedTimers`; `None` when building the groups throws. */
  function GroupedTimers(timers: seq<Timer>, selected: Option<string>): (r: Option<map<string, seq<Timer>>>)
    ensures r.None? <==> !PlainCategories(Shown(timers, selected))
    ensures r.Some? ==> forall k :: k in r.value <==> exists t :: t in Shown(timers, selected) && t.category == k
    ensures r.Some? ==> forall k :: k in r.value ==> r.value[k] == InCategory(Shown(timers, selected), k)
  {
    var shown := Shown(timers, selected);
    GroupAllThrows(map[], shown);
    GroupAllKeys(map[], shown);
    GroupAllValues(map[], shown);
    GroupAll(map[], shown)
  }

  /** The `forEach` throws exactly when it meets a category that is an
      inherited name without an own group. */
  lemma {:induction false} GroupAllThrows(groups: map<string, seq<Timer>>, ts: seq<Timer>)
    ensures GroupAll(groups, ts).None? <==>
      exists t :: t in ts && t.category in InheritedKeys && t.category !in groups
    decreases |ts|
  {
    if |ts| > 0 && !(ts[0].category in InheritedKeys && ts[0].category !in groups) {
      var next := AddToGroup(groups, ts[0]);
      GroupAllThrows(next, ts[1..]);
      if exists t :: t in ts && t.category in InheritedKeys && t.category !in groups {
        var t :| t in ts && t.category in InheritedKeys && t.category !in groups;
        assert t != ts[0] && t.category != ts[0].category;
        assert t in ts[1..] && t.category !in next;
      }
      if exists t :: t in ts[1..] && t.category in InheritedKeys && t.category !in next {
        var t :| t in ts[1..] && t.category in InheritedKeys && t.category !in next;
        assert t in ts;
      }
    } else if |ts| > 0 {
      assert ts[0] in ts;
    }
  }

  lemma {:induction false} GroupAllKeys(groups: map<string, seq<Timer>>, ts: seq<Timer>)
    ensures GroupAll(groups, ts).Some? ==>
      forall k :: k in GroupAll(groups, ts).value <==> k in groups || exists t :: t in ts && t.category == k
    decreases |ts|
  {
    if |ts| > 0 && GroupAll(groups, ts).Some? {
      GroupAllKeys(AddToGroup(groups, ts[0]), ts[1..]);
      var g := GroupAll(groups, ts).value;
      forall k ensures k in g <==> k in groups || exists t :: t in ts && t.category == k {
        if exists t :: t in ts && t.category == k {
          var t :| t in ts && t.category == k;
          if t != ts[0] {
            assert t in ts[1..];
          }
        }
        if exists t :: t in ts[1..] && t.category == k {
          var t :| t in ts[1..] && t.category == k;
          assert t in ts;
        }
      }
    }
  }

  lemma {:induction false} GroupAllValues(groups: map<string, seq<Timer>>, ts: seq<Timer>)
    ensures GroupAll(groups, ts).Some? ==>
      forall k :: k in GroupAll(groups, ts).value ==>
        GroupAll(groups, ts).value[k] == GroupOf(groups, k) + InCategory(ts, k)
    decreases |ts|
  {
    if |ts| > 0 && GroupAll(groups, ts).Some? {
      var next := AddToGroup(groups, ts[0]);
      GroupAllValues(next, ts[1..]);
      var g := GroupAll(groups, ts).value;
      forall k | k in g
        ensures g[k] == GroupOf(groups, k) + InCategory(ts, k)
      {
        if k == ts[0].category {
          assert GroupOf(next, k) == GroupOf(groups, k) + [ts[0]];
          assert InCategory(ts, k) == [ts[0]] + InCategory(ts[1..], k);
          assert GroupOf(groups, k) + [ts[0]] + InCategory(ts[1..], k)
              == GroupOf(groups, k) + ([ts[0]] + InCategory(ts[1..], k));
        } else {
          assert GroupOf(next, k) == GroupOf(groups, k);
        }
      }
    }
  }

  /** A timer whose category is an inherited name, such as "toString", makes
      the list fail to build whenever it is shown. */
  lemma InheritedCategoryBreaksList(timers: seq<Timer>, i: int)
    requires 0 <= i < |timers| && timers[i].category in InheritedKeys
    ensures GroupedTimers(timers, None).None?
    ensures GroupedTimers(timers, Some(timers[i].category)).None?
  {
    assert timers[i] in timers;
    assert timers[i] in Shown(timers, Some(timers[i].category));
  }

  /** Without a filter, when the list builds, every timer lands in exactly
      the group of its own category, and no group is empty. */
  lemma EveryTimerInItsGroup(timers: seq<Timer>)
    ensures GroupedTimers(timers, None).Some? <==> PlainCategories(timers)
    ensures var g := GroupedTimers(timers, None);
      g.Some? ==>
        && (forall t :: t in timers ==> t.category in g.value && t in g.value[t.category])
        && (forall k, t :: k in g.value && t in g.value[k] ==> t.category == k)
        && (forall k :: k in g.value ==> |g.value[k]| > 0)
  {
    var g := GroupedTimers(timers, None);
    if g.Some? {
      forall k | k in g.value ensures |g.value[k]| > 0 {
        var t :| t in timers && t.category == k;
        assert t in g.value[k];
      }
    }
  }

  /** With a category selected only that category's group can exist; the
      list fails to build only when that category is an inherited name. */
  lemma FilterKeepsOneGroup(timers: seq<Timer>, category: string)
    requires category != []
    ensures var g := GroupedTimers(timers, Some(category));
      && (g.None? ==> category in InheritedKeys)
      && (g.Some? ==> forall k :: k in g.value ==> k == category)
      && (g.Some? && category in g.value ==> g.value[category] == InCategory(timers, category))
  {
    var shown := Shown(timers, Some(category));
    assert InCategory(shown, category) == InCategory(timers, category) by {
      InCategoryTwice(timers, category);
    }
  }

  /** Filtering twice by the same category is filtering once. */
  lemma {:induction false} InCategoryTwice(timers: seq<Timer>, category: string)
    ensures InCategory(InCategory(timers, category), category) == InCategory(timers, category)
  {
    if |timers| > 0 {
      InCategoryTwice(timers[1..], category);
      if timers[0].category == category {
        InCategoryAppend([timers[0]], InCategory(timers[1..], category), category);
      }
    }
  }

  /** Adding a timer at the end of the list adds it at the end of its
      group, whenever the list builds. */
  lemma NewTimerJoinsEndOfGroup(timers: seq<Timer>, t: Timer)
    ensures var g := GroupedTimers(timers + [t], None);
      g.Some? ==> t.category in g.value && g.value[t.category] == InCategory(timers, t.category) + [t]
  {
    var all := timers + [t];
    var g := GroupedTimers(all, None);
    assert Shown(all, None) == all;
    if g.Some? {
      assert t in all;
      assert t.category in g.value;
      assert g.value[t.category] == InCategory(all, t.category);
      InCategoryAppend(timers, [t], t.category);
      assert InCategory([t], t.category) == [t];
    }
  }
}

=== FILE: timer_operations.dfy ===
/** The alert engine and the category bulk update of `utils/timerOperations.ts`:
    which alert threshold fires next, marking thresholds consumed, applying
    start/pause/reset to a whole category, the tick interval and the
    eligibility table. The clock is the parameter `now` (milliseconds). */
module TimerOperations {
  import opened TimerTypes

  /** The completion percentage `((duration - remaining) / duration) * 100`,
      kept as its two integer inputs so that comparisons are exact. */
  datatype Progress = Progress(duration: int, remaining: int)

  function ProgressOf(t: Timer): Progress {
    Progress(t.duration, t.remainingTime)
  }

  /** `currentPercentage >= p`, decided exactly. For a positive duration this
      is `(duration - remaining) * 100 >= p * duration`; a negative duration
      flips the inequality; for a zero duration the quotient is `+Infinity`
      (so every threshold is reached) when `-remaining > 0`, and `-Infinity`
      or `NaN` (no threshold is reached) otherwise. */
  predicate Reaches(pr: Progress, p: int) {
    if pr.duration > 0 then (pr.duration - pr.remaining) * 100 >= p * pr.duration
    else if pr.duration < 0 then (pr.duration - pr.remaining) * 100 <= p * pr.duration
    else pr.remaining < 0
  }

  /** The completion percentage as an exact rational (duration non-zero). */
  function Percentage(pr: Progress): real
    requires pr.duration != 0
  {
    ((pr.duration - pr.remaining) as real / pr.duration as real) * 100.0
  }

  /** For a non-zero duration, `Reaches` is exactly the comparison of the
      rational completion percentage with the threshold. */
  lemma ReachesIsPercentageComparison(pr: Progress, p: int)
    requires pr.duration != 0
    ensures Reaches(pr, p) <==> Percentage(pr) >= p as real
  {
    var d := pr.duration as real;
    var x := (pr.duration - pr.remaining) as real;
    var q := x / d;
    assert q * d == x;
    if pr.duration > 0 {
      assert q * 100.0 >= p as real <==> q * 100.0 * d >= p as real * d;
    } else {
      assert q * 100.0 >= p as real <==> q * 100.0 * d <= p as real * d;
    }
  }

  /** An alert the engine may fire now: not yet triggered and reached. */
  predicate Eligible(a: TimerAlert, pr: Progress) {
    !a.triggered && Reaches(pr, a.percentage)
  }

  /** `updateTimerAlerts`: every reached threshold is marked triggered;
      percentages and order are kept. */
  function UpdateTimerAlerts(alerts: seq<TimerAlert>, pr: Progress): (r: seq<TimerAlert>)
    ensures |r| == |alerts|
    ensures forall i :: 0 <= i < |r| ==> r[i].percentage == alerts[i].percentage
    ensures forall i :: 0 <= i < |r| ==> alerts[i].triggered ==> r[i].triggered
    ensures forall i :: 0 <= i < |r| ==> (r[i].triggered <==> alerts[i].triggered || Reaches(pr, alerts[i].percentage))
    ensures forall a :: a in r ==> !Eligible(a, pr)
  {
    if |alerts| == 0 then []
    else
      var a := alerts[0];
      [a.(triggered := a.triggered || Reaches(pr, a.percentage))] + UpdateTimerAlerts(alerts[1..], pr)
  }

  /** The alert `getNextAlert` returns: among the eligible alerts, one with
      the lowest percentage (the first such in list order, as a stable sort
      leaves it). */
  function NextEligible(alerts: seq<TimerAlert>, pr: Progress): (r: Option<TimerAlert>)
    ensures r.Some? ==> r.value in alerts && Eligible(r.value, pr)
    ensures r.Some? ==> forall b :: b in alerts && Eligible(b, pr) ==> r.value.percentage <= b.percentage
    ensures r.None? <==> forall b :: b in alerts ==> !Eligible(b, pr)
  {
    if |alerts| == 0 then None
    else
      var rest := NextEligible(alerts[1..], pr);
      assert forall b :: b in alerts ==> b == alerts[0] || b in alerts[1..];
      if !Eligible(alerts[0], pr) then rest
      else if rest.Some? && rest.value.percentage < alerts[0].percentage then rest
      else Some(alerts[0])
  }

  /** `getNextAlert(timer)`. */
  function GetNextAlert(t: Timer): (r: Option<TimerAlert>)
    ensures r.Some? ==> r.value in t.alerts && !r.value.triggered
    ensures r.Some? ==> Reaches(ProgressOf(t), r.value.percentage)
    ensures r.Some? ==> forall b :: b in t.alerts && Eligible(b, ProgressOf(t)) ==> r.value.percentage <= b.percentage
    ensures r.None? <==> forall b :: b in t.alerts ==> b.triggered || !Reaches(ProgressOf(t), b.percentage)
  {
    NextEligible(t.alerts, ProgressOf(t))
  }

  /** Marking thresholds consumed at a progress leaves nothing to fire at
      that same progress. */
  lemma NothingToFireAfterUpdate(alerts: seq<TimerAlert>, pr: Progress)
    ensures NextEligible(UpdateTimerAlerts(alerts, pr), pr).None?
  {
  }

  /** The alert the engine picks is never above a threshold that is still
      pending, so thresholds are consumed from the lowest up. */
  lemma {:induction false} NextEligibleIsLowest(alerts: seq<TimerAlert>, pr: Progress, i: int)
    requires 0 <= i < |alerts| && Eligible(alerts[i], pr)
    ensures NextEligible(alerts, pr).Some?
    ensures NextEligible(alerts, pr).value.percentage <= alerts[i].percentage
  {
    assert alerts[i] in alerts;
  }

  /** The body of one entry of `updateTimersInCategory` for a timer of the
      category that the operation is allowed to touch. */
  function ApplyOperation(t: Timer, op: Operation, now: int): (r: Timer)
    ensures r.id == t.id && r.name == t.name && r.category == t.category && r.duration == t.duration
    ensures r.lastUpdated == Some(now)
    ensures op == Start ==> r.status == Running && r.remainingTime == t.remainingTime && r.alerts == t.alerts
    ensures op == Pause ==> r.status == Paused && r.remainingTime == t.remainingTime && r.alerts == t.alerts
    ensures op == Reset ==> r.status == Paused && r.remainingTime == t.duration
    ensures op == Reset ==> |r.alerts| == |t.alerts|
    ensures op == Reset ==> forall i :: 0 <= i < |r.alerts| ==>
      r.alerts[i].percentage == t.alerts[i].percentage && !r.alerts[i].triggered
  {
    match op
    case Start => t.(status := Running, lastUpdated := Some(now))
    case Pause => t.(status := Paused, lastUpdated := Some(now))
    case Reset => t.(status := Paused, remainingTime := t.duration, lastUpdated := Some(now),
                     alerts := ClearTriggers(t.alerts))
  }

  /** Every alert with its `triggered` flag cleared. */
  function ClearTriggers(alerts: seq<TimerAlert>): (r: seq<TimerAlert>)
    ensures |r| == |alerts|
    ensures forall i :: 0 <= i < |r| ==> r[i].percentage == alerts[i].percentage && !r[i].triggered
  {
    seq(|alerts|, i requires 0 <= i < |alerts| => alerts[i].(triggered := false))
  }

  /** Whether `updateTimersInCategory` rewrites this timer. */
  predicate Touched(t: Timer, category: string, op: Operation) {
    t.category == category && (t.status != Completed || op == Reset)
  }

  /** `updateTimersInCategory(timers, category, op)`: the list keeps its
      length, order and ids; timers of other categories and completed timers
      (unless resetting) come back unchanged; the others get the operation. */
  function UpdateTimersInCategory(timers: seq<Timer>, category: string, op: Operation, now: int): (r: seq<Timer>)
    ensures |r| == |timers|
    ensures forall i :: 0 <= i < |r| ==> r[i].id == timers[i].id && r[i].category == timers[i].category
    ensures forall i :: 0 <= i < |r| && timers[i].category != category ==> r[i] == timers[i]
    ensures forall i :: 0 <= i < |r| && timers[i].status == Completed && op != Reset ==> r[i] == timers[i]
    ensures forall i :: 0 <= i < |r| && Touched(timers[i], category, op) ==> r[i] == ApplyOperation(timers[i], op, now)
  {
    seq(|timers|, i requires 0 <= i < |timers| =>
      if Touched(timers[i], category, op) then ApplyOperation(timers[i], op, now) else timers[i])
  }

  /** `getTimerUpdateInterval`: whole seconds since `lastUpdated`, at least
      one; an absent or zero `lastUpdated` (both falsy) gives one. */
  function GetTimerUpdateInterval(lastUpdated: Option<int>, now: int): (r: int)
    ensures r >= 1
    ensures lastUpdated.None? || lastUpdated.value == 0 ==> r == 1
    ensures lastUpdated.Some? && lastUpdated.value != 0 && r > 1 ==>
      r * 1000 <= now - lastUpdated.value < (r + 1) * 1000
    ensures lastUpdated.Some? && lastUpdated.value != 0 && r == 1 ==>
      now - lastUpdated.value < 2000
  {
    if lastUpdated.None? || lastUpdated.value == 0 then 1
    else
      var elapsed := (now - lastUpdated.value) / 1000;
      if elapsed < 1 then 1 else elapsed
  }

  /** `calculateTimerProgress` as an exact rational: zero for a zero
      duration, otherwise the completion percentage capped at 100. */
  function CalculateTimerProgress(t: Timer): (r: real)
    ensures t.duration == 0 ==> r == 0.0
    ensures r <= 100.0
    ensures t.duration != 0 ==> r <= Percentage(ProgressOf(t))
    ensures t.duration != 0 && Percentage(ProgressOf(t)) <= 100.0 ==> r == Percentage(ProgressOf(t))
    ensures t.duration != 0 && Percentage(ProgressOf(t)) >= 100.0 ==> r == 100.0
  {
    if t.duration == 0 then 0.0
    else
      var p := Percentage(ProgressOf(t));
      if p < 100.0 then p else 100.0
  }

  /** For a timer within its bounds the displayed progress is between 0 and 100. */
  lemma ProgressInRange(t: Timer)
    requires t.duration > 0 && 0 <= t.remainingTime <= t.duration
    ensures 0.0 <= CalculateTimerProgress(t) <= 100.0
  {
    var x := (t.duration - t.remainingTime) as real;
    var d := t.duration as real;
    assert x / d >= 0.0;
  }

  /** `isTimerEligibleForAction`: start needs a timer that is not completed
      and has time left, pause a running one; reset is always allowed. */
  function IsTimerEligibleForAction(t: Timer, op: Operation): (r: bool)
    ensures op == Start ==> (r <==> t.status != Completed && t.remainingTime > 0)
    ensures op == Pause ==> (r <==> t.status == Running)
    ensures op == Reset ==> r
    ensures r ==> Touched(t, t.category, op)
  {
    match op
    case Start => t.status != Completed && t.remainingTime > 0
    case Pause => t.status == Running
    case Reset => true
  }

  /** Every timer of the category that the eligibility table allows an
      operation on is rewritten by the bulk update with that operation;
      the bulk update also touches paused timers on pause and timers with
      no time left on start, which the table would refuse. */
  lemma EligibleTimersAreUpdated(timers: seq<Timer>, category: string, op: Operation, now: int, i: int)
    requires 0 <= i < |timers| && timers[i].category == category
    requires IsTimerEligibleForAction(timers[i], op)
    ensures UpdateTimersInCategory(timers, category, op, now)[i] == ApplyOperation(timers[i], op, now)
  {
  }
}

=== FILE: timer_progress.dfy ===
/** `formatTime` of `components/timer/TimerProgress.tsx`: a whole number of
    seconds as "Ns", "Mm Ss" or "Hh Mm Ss", with a reader that inverts it. */
module TimerProgress {
  import opened TimerTypes
  import opened JsStrings

  /** Hours, minutes within the hour and seconds within the minute. */
  datatype Clock = Clock(hours: int, minutes: int, seconds: int)

  /** The split `formatTime` computes for `s >= 60` (floor division and a
      remainder that agree with JavaScript's for non-negative `s`). */
  function ClockOf(s: nat): (c: Clock)
    ensures c.hours * 3600 + c.minutes * 60 + c.seconds == s
    ensures c.hours >= 0 && 0 <= c.minutes < 60 && 0 <= c.seconds < 60
  {
    ClockArithmetic(s);
    Clock(s / 3600, (s % 3600) / 60, s % 60)
  }

  lemma ClockArithmetic(s: nat)
    ensures (s / 3600) * 3600 + ((s % 3600) / 60) * 60 + s % 60 == s
    ensures 0 <= (s % 3600) / 60 < 60
  {
    var q, r := s / 3600, s % 3600;
    assert s == 3600 * q + r;
    var m, x := r / 60, r % 60;
    assert r == 60 * m + x;
    assert s == 60 * (60 * q + m) + x;
    ModUnique(s, 60 * q + m, x);
  }

  lemma ModUnique(a: int, k: int, x: int)
    requires a == 60 * k + x && 0 <= x < 60
    ensures a % 60 == x
  {
  }

  /** `formatTime(seconds)` for an integer `seconds`. */
  function FormatTime(s: int): (r: string)
    ensures |r| > 0 && r[|r| - 1] == 's'
    ensures s < 60 ==> r == IntToString(s) + "s"
    ensures s >= 3600 ==>
      r == IntToString(ClockOf(s).hours) + "h " + IntToString(ClockOf(s).minutes) + "m "
           + IntToString(ClockOf(s).seconds) + "s"
    ensures 60 <= s < 3600 ==>
      r == IntToString(s / 60) + "m " + IntToString(s % 60) + "s"
  {
    if s < 60 then IntToString(s) + "s"
    else
      var c := ClockOf(s);
      if c.hours > 0 then
        IntToString(c.hours) + "h " + IntToString(c.minutes) + "m " + IntToString(c.seconds) + "s"
      else if c.minutes > 0 then
        IntToString(c.minutes) + "m " + IntToString(c.seconds) + "s"
      else
        IntToString(s) + "s"
  }

  /** The last fallback of `formatTime` is never taken for `s >= 60`: the
      hours or the minutes are positive. */
  lemma FallbackUnreachable(s: int)
    requires s >= 60
    ensures ClockOf(s).hours > 0 || ClockOf(s).minutes > 0
  {
  }

  /** The seconds one unit letter stands for. */
  function UnitWeight(u: char): Option<int> {
    if u == 'h' then Some(3600) else if u == 'm' then Some(60) else if u == 's' then Some(1) else None
  }

  /** One "<digits><unit>" segment read off the front of a text: its
      value in seconds and the text after the unit letter. */
  datatype Segment = Segment(value: int, rest: string)

  /** The decimal value of the digits `t[..j]`. */
  function LeadingValue(t: string, j: nat): nat
    requires j <= |t| && forall k :: 0 <= k < j ==> IsDecimalDigit(t[k])
  {
    if j == 0 then 0 else LeadingValue(t, j - 1) * 10 + DigitValue(t[j - 1])
  }

  /** Scans the digits of `t` from position `i` on; `t[..i]` are digits. */
  function ScanSegment(t: string, i: nat): Option<Segment>
    requires i <= |t| && forall k :: 0 <= k < i ==> IsDecimalDigit(t[k])
    decreases |t| - i
  {
    if i < |t| && IsDecimalDigit(t[i]) then ScanSegment(t, i + 1)
    else if i == 0 || i == |t| || UnitWeight(t[i]).None? then None
    else Some(Segment(LeadingValue(t, i) * UnitWeight(t[i]).value, t[i + 1..]))
  }

  /** The leading segment of `t`, if `t` starts with digits and a unit letter. */
  function SplitSegment(t: string): Option<Segment> {
    ScanSegment(t, 0)
  }

  /** Reads text of the form "<digits><unit>( <digits><unit>)*" back into
      seconds, where the units are h, m and s. */
  function ReadTime(t: string): Option<int>
    decreases |t|
  {
    match SplitSegment(t)
    case None => None
    case Some(seg) =>
      if |seg.rest| == 0 then Some(seg.value)
      // the rest is always shorter than `t`; the comparison shows it to the
      // termination check
      else if seg.rest[0] != ' ' || |seg.rest| >= |t| then None
      else match ReadTime(seg.rest[1..])
        case None => None
        case Some(v) => Some(seg.value + v)
  }

  lemma {:induction false} LeadingValueIsDigitsValue(t: string, j: nat)
    requires j <= |t| && forall k :: 0 <= k < j ==> IsDecimalDigit(t[k])
    ensures LeadingValue(t, j) == DigitsValue(t[..j], false)
  {
    if j > 0 {
      LeadingValueIsDigitsValue(t, j - 1);
      assert t[..j][..j - 1] == t[..j - 1];
    }
  }

  /** Scanning from `i` stops at the first non-digit `k`. */
  lemma {:induction false} ScanSegmentAt(t: string, i: nat, k: nat)
    requires i <= k < |t|
    requires forall x :: 0 <= x < k ==> IsDecimalDigit(t[x])
    requires !IsDecimalDigit(t[k])
    ensures ScanSegment(t, i) == ScanSegment(t, k)
    decreases k - i
  {
    if i < k {
      ScanSegmentAt(t, i + 1, k);
    }
  }

  /** The segment at the front of "<digits><u>" followed by `rest`. */
  lemma SplitOfSegment(d: string, u: char, w: int, rest: string)
    requires |d| > 0 && AllDecimalDigits(d) && UnitWeight(u) == Some(w)
    ensures SplitSegment(d + [u] + rest) == Some(Segment(DigitsValue(d, false) * w, rest))
  {
    var t := d + [u] + rest;
    ScanSegmentAt(t, 0, |d|);
    assert t[..|d|] == d;
    LeadingValueIsDigitsValue(t, |d|);
    assert t[|d|] == u;
    assert t[|d| + 1..] == rest;
  }

  /** One unfolding of `ReadTime` past a segment followed by a blank. */
  lemma ReadTimeStep(t: string, seg: Segment, v: int)
    requires SplitSegment(t) == Some(seg)
    requires |seg.rest| > 0 && seg.rest[0] == ' ' && |seg.rest| < |t|
    requires ReadTime(seg.rest[1..]) == Some(v)
    ensures ReadTime(t) == Some(seg.value + v)
  {
  }

  /** One "<digits><unit>" piece of a formatted time. */
  datatype Part = Part(digits: string, unit: char)

  /** A non-empty list of pieces. */
  datatype Parts = Last(part: Part) | Then(part: Part, more: Parts)

  predicate ValidPart(p: Part) {
    |p.digits| > 0 && AllDecimalDigits(p.digits) && UnitWeight(p.unit).Some?
  }

  predicate ValidParts(ps: Parts) {
    ValidPart(ps.part) && (ps.Then? ==> ValidParts(ps.more))
  }

  /** The text of one piece. */
  function PartText(p: Part): string {
    p.digits + [p.unit]
  }

  /** The seconds one piece stands for. */
  function PartValue(p: Part): int
    requires ValidPart(p)
  {
    DigitsValue(p.digits, false) * UnitWeight(p.unit).value
  }

  /** The pieces joined by single blanks. */
  function Render(ps: Parts): string {
    match ps
    case Last(p) => PartText(p)
    case Then(p, more) => PartText(p) + ([' '] + Render(more))
  }

  /** The seconds the pieces stand for. */
  function Total(ps: Parts): int
    requires ValidParts(ps)
  {
    match ps
    case Last(p) => PartValue(p)
    case Then(p, more) => PartValue(p) + Total(more)
  }

  /** Reading the last piece. */
  lemma ReadLastPart(p: Part)
    requires ValidPart(p)
    ensures ReadTime(PartText(p)) == Some(PartValue(p))
  {
    SplitOfSegment(p.digits, p.unit, UnitWeight(p.unit).value, []);
    assert p.digits + [p.unit] + [] == PartText(p);
  }

  /** Reading a piece followed by a blank and more text. */
  lemma ReadPartThen(p: Part, rest: string, v: int)
    requires ValidPart(p) && ReadTime(rest) == Some(v)
    ensures ReadTime(PartText(p) + ([' '] + rest)) == Some(PartValue(p) + v)
  {
    var tail := [' '] + rest;
    SplitOfSegment(p.digits, p.unit, UnitWeight(p.unit).value, tail);
    assert tail[1..] == rest;
    ReadTimeStep(PartText(p) + tail, Segment(PartValue(p), tail), v);
  }

  /** Reading the blank-joined pieces gives their total. */
  lemma {:induction false} ReadRender(ps: Parts)
    requires ValidParts(ps)
    ensures ReadTime(Render(ps)) == Some(Total(ps))
  {
    match ps
    case Last(p) =>
      ReadLastPart(p);
    case Then(p, more) =>
      ReadRender(more);
      ReadPartThenParts(p, more);
  }

  /** The step of `ReadRender`: one more piece in front. */
  lemma ReadPartThenParts(p: Part, more: Parts)
    requires ValidPart(p) && ValidParts(more)
    requires ReadTime(Render(more)) == Some(Total(more))
    ensures ReadTime(Render(Then(p, more))) == Some(Total(Then(p, more)))
  {
    var rest := Render(more);
    assert Render(Then(p, more)) == PartText(p) + ([' '] + rest);
    ReadPartThen(p, rest, Total(more));
  }

  /** The pieces `formatTime` prints for `s` seconds. */
  function PartsOf(s: nat): Parts {
    var c := ClockOf(s);
    if s < 60 then Last(Part(NatToString(s), 's'))
    else if c.hours > 0 then
      Then(Part(NatToString(c.hours), 'h'), Then(Part(NatToString(c.minutes), 'm'), Last(Part(NatToString(c.seconds), 's'))))
    else Then(Part(NatToString(c.minutes), 'm'), Last(Part(NatToString(c.seconds), 's')))
  }

  lemma FormatTimeIsRender(s: nat)
    ensures FormatTime(s) == Render(PartsOf(s))
  {
    var c := ClockOf(s);
    var h, m, x := NatToString(c.hours), NatToString(c.minutes), NatToString(c.seconds);
    if s >= 60 {
      var tail := Then(Part(m, 'm'), Last(Part(x, 's')));
      MinutesText(m, x);
      assert Render(tail) == m + "m " + x + "s";
      if c.hours > 0 {
        HoursText(h, m, x);
        assert FormatTime(s) == h + "h " + m + "m " + x + "s";
        assert Render(PartsOf(s)) == h + ['h'] + ([' '] + Render(tail));
      } else {
        FallbackUnreachable(s);
        assert FormatTime(s) == m + "m " + x + "s";
        assert PartsOf(s) == tail;
      }
    }
  }

  lemma MinutesText(m: string, x: string)
    ensures m + "m " + x + "s" == m + ['m'] + ([' '] + (x + ['s']))
  {
  }

  lemma HoursText(h: string, m: string, x: string)
    ensures h + "h " + m + "m " + x + "s" == h + ['h'] + ([' '] + (m + "m " + x + "s"))
  {
  }

  lemma TotalOfPartsOf(s: nat)
    ensures ValidParts(PartsOf(s)) && Total(PartsOf(s)) == s
  {
    var c := ClockOf(s);
    if s < 60 {
      NatToStringValue(s);
    } else {
      NatToStringValue(c.minutes);
      NatToStringValue(c.seconds);
      var pm, ps := Part(NatToString(c.minutes), 'm'), Part(NatToString(c.seconds), 's');
      assert PartValue(pm) == c.minutes * 60;
      assert PartValue(ps) == c.seconds;
      if c.hours > 0 {
        NatToStringValue(c.hours);
        var ph := Part(NatToString(c.hours), 'h');
        assert PartValue(ph) == c.hours * 3600;
        assert Total(Then(pm, Last(ps))) == c.minutes * 60 + c.seconds;
        assert PartsOf(s) == Then(ph, Then(pm, Last(ps)));
      }
    }
  }

  /** `formatTime` loses nothing: reading its text back gives the seconds. */
  lemma FormatTimeRoundTrip(s: nat)
    ensures ReadTime(FormatTime(s)) == Some(s)
  {
    FormatTimeIsRender(s);
    TotalOfPartsOf(s);
    ReadRender(PartsOf(s));
  }
}

=== FILE: timer_state_updates.dfy ===
/** The completion helpers of `utils/timerStateUpdates.ts`: building a
    history record, the clamped remaining-time update and the predicate that
    decides whether a completion is announced. Clock readings are parameters. */
module TimerStateUpdates {
  import opened TimerTypes

  /** `createHistoryItem(timer)`: the record's id and completion stamp come
      from the clock (`clock`, `isoNow`), everything else from the timer. */
  function CreateHistoryItem(t: Timer, clock: int, isoNow: string): (h: HistoryItem)
    ensures h.name == t.name && h.category == t.category && h.duration == t.duration
    ensures h.id == clock && h.completedAt == isoNow
  {
    HistoryItem(clock, t.name, t.category, t.duration, isoNow)
  }

  /** `updateTimerWithRemaining(timer, remaining)`. */
  function UpdateTimerWithRemaining(t: Timer, remaining: int, now: int): (r: Timer)
    ensures r.remainingTime >= 0
    ensures remaining >= 0 ==> r.remainingTime == remaining
    ensures remaining < 0 ==> r.remainingTime == 0
    ensures r.status == Completed <==> remaining <= 0 || t.status == Completed
    ensures remaining > 0 ==> r.status == t.status
    ensures r.lastUpdated == Some(now)
    ensures r.id == t.id && r.name == t.name && r.category == t.category
    ensures r.duration == t.duration && r.alerts == t.alerts
  {
    t.(remainingTime := if remaining < 0 then 0 else remaining,
       status := if remaining <= 0 then Completed else t.status,
       lastUpdated := Some(now))
  }

  /** `shouldShowCompletionModal(timer, remaining)`: announced only at
      exactly zero, and only for a timer not yet completed, which the
      update to that remaining time then completes. */
  function ShouldShowCompletionModal(t: Timer, remaining: int): (r: bool)
    ensures r <==> remaining == 0 && t.status != Completed
    ensures r ==> forall now :: UpdateTimerWithRemaining(t, remaining, now).status == Completed
  {
    remaining == 0 && t.status != Completed
  }

  /** Exactly-once completion: once the update has driven the remaining time
      to zero or below, the completion is no longer announced for the
      resulting timer. */
  lemma CompletionAnnouncedOnce(t: Timer, remaining: int, now: int)
    requires remaining <= 0
    ensures UpdateTimerWithRemaining(t, remaining, now).remainingTime == 0
    ensures !ShouldShowCompletionModal(UpdateTimerWithRemaining(t, remaining, now), 0)
  {
  }

  /** The completion is announced for a timer not yet completed exactly when
      the update it is about to receive completes it at zero. */
  lemma CompletionAnnouncedWhenReachingZero(t: Timer, now: int)
    requires t.status != Completed
    ensures ShouldShowCompletionModal(t, 0)
    ensures UpdateTimerWithRemaining(t, 0, now).status == Completed
  {
  }
}

=== FILE: types.dfy ===
/** Records shared by every part of the countdown-timer model: the timer, its
    percentage alerts, the completion history item and the provider's session
    state (timer list, history log and the per-timer last-tick table). */
module TimerTypes {

  /** An optional value; `None` stands for JavaScript's `undefined`. */
  datatype Option<+T> = None | Some(value: T)

  /** The three states a timer can be in. */
  datatype Status = Running | Paused | Completed

  /** A progress alert: fires once the completion percentage reaches `percentage`. */
  datatype TimerAlert = TimerAlert(percentage: int, triggered: bool)

  /** A countdown timer. `lastUpdated` is absent on a freshly created timer. */
  datatype Timer = Timer(
    id: int,
    name: string,
    category: string,
    duration: int,
    remainingTime: int,
    status: Status,
    alerts: seq<TimerAlert>,
    lastUpdated: Option<int>)

  /** One completion record; `completedAt` is the ISO text of the clock. */
  datatype HistoryItem = HistoryItem(
    id: int,
    name: string,
    category: string,
    duration: int,
    completedAt: string)

  /** The operations the category coordinator applies in bulk. */
  datatype Operation = Start | Pause | Reset

  /** The provider's state: the timer list, the history log and the
      last-tick timestamps kept per timer id (milliseconds). */
  datatype Session = Session(
    timers: seq<Timer>,
    history: seq<HistoryItem>,
    lastTick: map<int, int>)

  /** Index of the first timer carrying `id`, as `Array.prototype.find` sees it. */
  function FindIndex(timers: seq<Timer>, id: int): (r: Option<nat>)
    ensures r.Some? ==> r.value < |timers| && timers[r.value].id == id
    ensures r.Some? ==> forall j :: 0 <= j < r.value ==> timers[j].id != id
    ensures r.None? <==> forall j :: 0 <= j < |timers| ==> timers[j].id != id
  {
    if |timers| == 0 then None
    else if timers[0].id == id then Some(0)
    else match FindIndex(timers[1..], id)
      case None => None
      case Some(k) => Some(k + 1)
  }

  /** The timer `timers.find(t => t.id === id)` returns. */
  function Find(timers: seq<Timer>, id: int): (r: Option<Timer>)
    ensures r.Some? ==> r.value in timers && r.value.id == id
    ensures r.None? <==> forall t :: t in timers ==> t.id != id
  {
    match FindIndex(timers, id)
    case None => None
    case Some(k) => Some(timers[k])
  }

  /** The timers whose category equals `category`, in list order. */
  function InCategory(timers: seq<Timer>, category: string): (r: seq<Timer>)
    ensures |r| <= |timers|
    ensures forall t :: t in r <==> t in timers && t.category == category
  {
    if |timers| == 0 then []
    else if timers[0].category == category then [timers[0]] + InCategory(timers[1..], category)
    else InCategory(timers[1..], category)
  }

  /** Filtering by category keeps list order: it distributes over
      concatenation. */
  lemma {:induction false} InCategoryAppend(a: seq<Timer>, b: seq<Timer>, category: string)
    ensures InCategory(a + b, category) == InCategory(a, category) + InCategory(b, category)
  {
    if |a| == 0 {
      assert a + b == b;
    } else {
      assert (a + b)[1..] == a[1..] + b;
      InCategoryAppend(a[1..], b, category);
    }
  }

  /** An update that keeps every position's id keeps what `find` returns
      the position of. */
  lemma {:induction false} FindIndexKeptByIds(a: seq<Timer>, b: seq<Timer>, id: int)
    requires |a| == |b|
    requires forall i :: 0 <= i < |a| ==> a[i].id == b[i].id
    ensures FindIndex(a, id) == FindIndex(b, id)
  {
    if |a| > 0 && a[0].id != id {
      FindIndexKeptByIds(a[1..], b[1..], id);
    }
  }
}

=== FILE: validation.dfy ===
/** The form validators of `utils/validation.ts`: the duration field and the
    category choice. */
module Validation {
  import opened TimerTypes
  import opened JsStrings

  /** `{ isValid, error? }`: valid, or invalid with an optional error. */
  datatype Verdict<+E> = Valid | Invalid(error: Option<E>)

  datatype DurationError =
    | DurationRequired
    | DurationTooLong
    | DurationNotPositive
    | DurationOverDay

  /** The text shown for each duration error. */
  function DurationMessage(e: DurationError): string {
    match e
    case DurationRequired => "Duration is required"
    case DurationTooLong => "Duration is too long"
    case DurationNotPositive => "Duration must be a positive number"
    case DurationOverDay => "Duration cannot exceed 24 hours"
  }

  /** The longest duration accepted, in seconds (24 hours). */
  const MaxDurationSeconds := 86400

  /** `validateDuration(value)`. */
  function ValidateDuration(value: string): (r: Verdict<DurationError>)
    ensures r.Valid? <==>
      && 0 < |value| <= 5 && AllDecimalDigits(value)
      && 1 <= DigitsValue(value, false) <= MaxDurationSeconds
    ensures |value| == 0 ==> r == Invalid(Some(DurationRequired))
    ensures |value| > 0 && !AllDecimalDigits(value) ==> r == Invalid(None)
    ensures AllDecimalDigits(value) && |value| > 5 ==> r == Invalid(Some(DurationTooLong))
    ensures 0 < |value| <= 5 && AllDecimalDigits(value) && DigitsValue(value, false) == 0 ==>
      r == Invalid(Some(DurationNotPositive))
    ensures 0 < |value| <= 5 && AllDecimalDigits(value) && DigitsValue(value, false) > MaxDurationSeconds ==>
      r == Invalid(Some(DurationOverDay))
  {
    if |value| == 0 then Invalid(Some(DurationRequired))
    else if !AllDecimalDigits(value) then Invalid(None)
    else
      var n := ParseInt(value);
      ParseIntOfDigits(value);
      if |value| > 5 then Invalid(Some(DurationTooLong))
      else if n.None? || n.value <= 0 then Invalid(Some(DurationNotPositive))
      else if n.value > MaxDurationSeconds then Invalid(Some(DurationOverDay))
      else Valid
  }

  /** Six digits are "too long" before their value is looked at. */
  lemma SixDigitsTooLong()
    ensures ValidateDuration("100000") == Invalid(Some(DurationTooLong))
  {
    assert AllDecimalDigits("100000");
  }

  /** A string of zeros is worth 0, however long. */
  lemma {:induction false} ZerosValue(s: string)
    requires forall k :: 0 <= k < |s| ==> s[k] == '0'
    ensures DigitsValue(s, false) == 0
  {
    if |s| > 0 {
      ZerosValue(s[..|s| - 1]);
    }
  }

  /** An all-zero digit string is "not positive", not "too long". */
  lemma ZerosNotPositive()
    ensures ValidateDuration("00000") == Invalid(Some(DurationNotPositive))
  {
    ZerosValue("00000");
  }

  lemma {:induction false} Value8640()
    ensures DigitsValue("8640", false) == 8640
  {
    assert "8640"[..3] == "864";
    assert "864"[..2] == "86";
    assert "86"[..1] == "8";
  }

  /** One second over a day is refused. */
  lemma DayPlusOneRefused()
    ensures ValidateDuration("86401") == Invalid(Some(DurationOverDay))
  {
    Value8640();
    assert "86401"[..4] == "8640";
    assert DigitsValue("86401", false) == 86401;
  }

  /** A whole day is accepted. */
  lemma WholeDayAccepted()
    ensures ValidateDuration("86400") == Valid
  {
    Value8640();
    assert "86400"[..4] == "8640";
    assert DigitsValue("86400", false) == 86400;
  }

  /** A leading blank is a non-digit: invalid, with no message. */
  lemma BlankIsNotDigit()
    ensures ValidateDuration(" 5") == Invalid(None)
  {
    assert !IsDecimalDigit(" 5"[0]);
  }

  datatype CategoryError =
    | CategoryRequired
    | CustomNameRequired
    | CategoryTooLong(maxLength: int)

  /** The text shown for each category error. */
  function CategoryMessage(e: CategoryError): string {
    match e
    case CategoryRequired => "Category is required"
    case CustomNameRequired => "Please enter a custom category name"
    case CategoryTooLong(n) => "Category name cannot exceed " + IntToString(n) + " characters"
  }

  /** `validateCategory(value, customCategory, maxLength)`. The length limit
      applies to the trimmed `value`, never to `customCategory`. */
  function ValidateCategory(value: string, customCategory: string, maxLength: int): (r: Verdict<CategoryError>)
    ensures r.Valid? <==>
      && !AllWhitespace(value)
      && !(value == "Custom" && AllWhitespace(customCategory))
      && |Trim(value)| <= maxLength
    ensures AllWhitespace(value) ==> r == Invalid(Some(CategoryRequired))
    ensures value == "Custom" && AllWhitespace(customCategory) ==> r == Invalid(Some(CustomNameRequired))
    ensures r == Invalid(Some(CategoryTooLong(maxLength))) <==>
      !AllWhitespace(value) && !(value == "Custom" && AllWhitespace(customCategory)) && |Trim(value)| > maxLength
    ensures r.Invalid? ==> r.error.Some?
  {
    if |Trim(value)| == 0 then Invalid(Some(CategoryRequired))
    else if value == "Custom" && |Trim(customCategory)| == 0 then Invalid(Some(CustomNameRequired))
    else if |Trim(value)| > maxLength then Invalid(Some(CategoryTooLong(maxLength)))
    else Valid
  }
}
